=== FILE: README.md ===
# tui-money, modelled in Dafny

tui-money is a terminal personal-finance application written in Rust. This
project models its core in Dafny:

- The domain values: entry ids, kinds, categories, money, entries, filters and errors.
- The two SQLite-backed repositories:
  - the current `SqliteRepository` of `crates/storage/src/repository.rs`, with
    entries typed as money and as checked categories, plus user accounts;
  - the older one in `crates/storage/src/lib.rs`, which keeps plain cents and
    category text.
- The mapper between money and stored cents.
- The migration engine.
- The keyboard-event mapping, the three screens (login, create-user and
  dashboard) and the application state machine that routes actions between them.

The database is modelled as the text SQLite holds:

- An `entries` row stores its kind tag, its amount in cents, its category
  text, its optional note and its `YYYY-MM-DD` date text.
- Filtering and ordering compare that text the way SQLite's BINARY
  collation does.
- `Calendar.FormatOrder` proves that, for four-digit years, text order of
  formatted dates is chronological order. This is what makes the `WHERE
  occurred_on >= ?` and `ORDER BY occurred_on DESC` clauses mean what they say.

Everything the code cannot see is a parameter:

- a write failure is a `fault: Option<string>`;
- the migration scripts' outcome is a `ScriptRunner` function;
- password hashing, hash parsing and verification form a `PasswordScheme`;
- the random salt is a `salt: string`.

Every operation returns its new state together with a `Result`. Each failure
the model covers, including those that only stop a loop part-way, is a value of
the error type rather than a precondition.

Modules, one per file: `Wrappers`, `Numerals` (i64 text), `Text` (trim, binary
collation), `Calendar`, `Sorting`, `Models`, `Mapper`, `EntryTable` (the
`entries` table and its query), `EntryStore` (current repository),
`LegacyStore` (older repository), `Migrations`, `UserStore`, `Repository`
(opening), `Screens`, `Event`, `Login`, `CreateUserForm`, `Dashboard`, `App`.

## Model

| member | source | states |
|---|---|---|
| Numerals.ParseI64 | crates/storage/src/mapper.rs:21 | `parse::<i64>`: an all-digit string whose value fits in i64 parses to that value; a leading '+' before such digits is accepted, and a '-' gives the negation; a value outside the i64 range fails, as do "", "+", "-" and any non-digit other than a leading sign |
| Numerals.Wrap64 | crates/storage/src/mapper.rs:23 | the `* 100` of the no-dot branch is taken modulo 2^64 into the i64 range: the result is congruent to the true product and equals it whenever that fits |
| Numerals.ParseShowInt | crates/domain/src/models.rs:8-12 | the decimal text `EntryId` displays parses back to the same i64, for every i64 |
| Numerals.ShowIntInjective | crates/domain/src/models.rs:8-12 | two i64 values with the same decimal text are equal |
| Models.DisplayId | crates/domain/src/models.rs:8-12 | an id's display text reads back as the id's integer |
| Models.DisplayIdInjective | crates/domain/src/models.rs:5-12 | two ids display the same exactly when they are the same id |
| Text.TrimStart | crates/domain/src/models.rs:26 | `trim_start` removes a prefix made only of white space and stops at the first non-white-space character |
| Text.TrimEnd | crates/domain/src/models.rs:26 | `trim_end` removes a suffix made only of white space and stops at the last non-white-space character |
| Text.TrimEmptyIffBlank | crates/domain/src/models.rs:26 | a name trims to the empty string exactly when every character of it is white space |
| Text.VisibleIffNotBlank | crates/domain/src/models.rs:26 | "has a visible character" is exactly the negation of "all white space" |
| Text.LexTransitive | crates/storage/src/repository.rs:134 | the text order SQLite sorts by is transitive |
| Text.LexTrichotomy | crates/storage/src/repository.rs:134 | any two texts are equal or ordered one way or the other |
| Text.LexSameWidthPrefix | crates/storage/src/repository.rs:115-122 | two texts that start with fields of the same width compare by those fields first, and by the rest only when the fields are equal |
| Text.LexLessPad | crates/storage/src/repository.rs:115-122 | zero-padded numbers of the same width compare as text exactly as they compare as numbers |
| Calendar.ParseFormat | crates/storage/src/repository.rs:88 | parsing the `%Y-%m-%d` text of any date gives the same date back |
| Calendar.FormatParse | crates/storage/src/repository.rs:179-180 | text the model's strict `%Y-%m-%d` parser accepts is the canonical formatted text of its date (chrono's laxer parsing is listed under Left out) |
| Calendar.FormatInjective | crates/storage/src/repository.rs:88 | different dates format to different texts |
| Calendar.FormatOrder | crates/storage/src/repository.rs:115-134 | one formatted date sorts below another exactly when its date is earlier |
| Sorting.Sort | crates/storage/src/repository.rs:134 | the ordered result holds the selected rows, each as often as before |
| Sorting.SortSorted | crates/storage/src/repository.rs:134 | under a strict weak order, no element of the sorted result belongs ahead of one placed before it |
| Models.NewCategory | crates/domain/src/models.rs:23-32 | `Category::new` fails with "Category cannot be empty" exactly when the name trims to nothing, and otherwise keeps the name untrimmed |
| Models.CategoryRoundTrip | crates/domain/src/models.rs:23-36 | every category is rebuilt by `Category::new` from its `as_str`, and an accepted name comes back unchanged |
| Models.WithId | crates/storage/src/repository.rs:101-108 | a stored entry carries the given id and exactly the fields of the new entry |
| Models.Validate | crates/domain/src/models.rs:64-73 | `validate` succeeds exactly when the amount is strictly positive, and fails with "Amount must be positive" otherwise |
| Models.ValidateReadsOnlyAmount | crates/domain/src/models.rs:64-73 | two new entries with the same amount validate alike, whatever their kind, category, note or date |
| Mapper.ToMoney | crates/storage/src/mapper.rs:4-6 | stored cents become a USD amount of that many minor units |
| Mapper.Find | crates/storage/src/mapper.rs:10 | `find('.')` gives the first '.' and nothing before it is a '.'; `None` means the text has no '.' |
| Mapper.PadCents | crates/storage/src/mapper.rs:13-16 | the padding loop appends only '0's, and only until there are two characters |
| Mapper.TwoFractionDigits | crates/storage/src/mapper.rs:13-19 | after padding and truncation the fraction is always its first two characters, with '0' filling in for any missing ones |
| Mapper.CentsFromText | crates/storage/src/mapper.rs:8-25 | with a '.', the whole part followed by two fraction digits is parsed, and 0 if that fails; without one, the parsed integer is scaled by 100 with i64 wrap-around, and 0 if parsing fails |
| Mapper.FromMoneyRoundTrip | crates/storage/src/mapper.rs:4-25 | `from_money(to_money(c)) == c` for every i64 count of cents, so a stored USD amount reads back unchanged |
| Mapper.NoMinorUnitsScaledBy100 | crates/storage/src/mapper.rs:22-24 | an amount of a currency without minor units comes back as 100 times its count, so the round trip holds for USD only |
| Mapper.ExtraFractionDigitsTruncated | crates/storage/src/mapper.rs:17-19 | fraction digits past the second are dropped, not rounded: "12.349" gives 1234 |
| Mapper.NegativeFractionTruncated | crates/storage/src/mapper.rs:17-21 | truncation goes toward zero for a negative amount as well: "-0.129" gives -12 |
| Mapper.ShortFractionPadded | crates/storage/src/mapper.rs:14-16 | a short fraction is padded with zeros: "12.3" gives 1230 and "12." gives 1200 |
| Mapper.WholeUnitsScaled | crates/storage/src/mapper.rs:22-23 | text without a '.' counts whole units: "12" gives 1200 |
| Mapper.UnparsableTextIsZero | crates/storage/src/mapper.rs:21-23 | text that does not parse gives 0, not an error: "abc", "1.2.3" and "" |
| Mapper.KindToStr | crates/storage/src/mapper.rs:27-32 | `kind_from_str` of every tag `kind_to_str` writes gives back the kind |
| Mapper.KindFromStr | crates/storage/src/mapper.rs:34-42 | exactly "expense" and "income" are accepted; anything else is `InvalidData("unknown entry kind: " + s)` |
| Mapper.KindCodec | crates/storage/src/mapper.rs:27-42 | the two kinds have distinct tags, and every accepted tag is written back as itself |
| EntryTable.InsertRow | crates/storage/src/repository.rs:92-100 | an insert either appends exactly one row under an id above every existing id, or fails with `Storage` and leaves the table unchanged; it keeps ids increasing |
| EntryTable.Select | crates/storage/src/repository.rs:115-133 | the `WHERE` clause keeps exactly the rows that meet every present condition |
| EntryTable.RowAfterIsStrictWeakOrder | crates/storage/src/repository.rs:134 | `occurred_on DESC, id DESC` is a strict weak order on rows |
| EntryTable.QueryContents | crates/storage/src/repository.rs:111-149 | the query returns exactly the stored rows that meet the filter, each as often as it is stored |
| EntryTable.QueryOrdered | crates/storage/src/repository.rs:134 | later date texts come first, and within a date larger ids come first |
| EntryTable.ParseStoredDate | crates/storage/src/repository.rs:179-180 | a stored date that does not parse is an `InvalidData` error, never `Storage`; one that parses is the formatted text of the result |
| EntryTable.DecodeAll | crates/storage/src/repository.rs:151-192 | the decoding loop succeeds exactly when every row converts, and then yields the entries in row order; otherwise it fails with the error of the first row that does not convert |
| EntryStore.Add | crates/storage/src/repository.rs:86-109 | `add` applies no validation and fails only with `Storage`, leaving the table unchanged; on success it appends exactly the row holding the kind tag, the cents, the category text, the note and the date text, and returns the new entry's fields under an id above every earlier one |
| EntryStore.DecodeRow | crates/storage/src/repository.rs:176-189 | a row converts exactly when its kind tag is known, its category is not blank and its date parses; checks run in that order and fail with `InvalidData`; the converted entry is a USD amount whose stored spelling is the row |
| EntryStore.RowRoundTrip | crates/storage/src/repository.rs:86-109 | the row `add` writes for a USD entry converts back to exactly that entry under its id |
| EntryStore.MatchesDecoded | crates/storage/src/repository.rs:115-126 | the text conditions on a stored row say what the filter means for its entry: on or after `from`, on or before `to`, in the category |
| EntryStore.ListSound | crates/storage/src/repository.rs:111-193 | every listed entry meets the filter and is the conversion of a stored row |
| EntryStore.ListComplete | crates/storage/src/repository.rs:111-193 | every stored row whose entry meets the filter is listed |
| EntryStore.ListExact | crates/storage/src/repository.rs:111-193 | when `list` succeeds, an entry is listed exactly when it meets the filter and some stored row converts to it |
| EntryStore.ListOrdered | crates/storage/src/repository.rs:134 | listed entries run from the latest date to the earliest, and within a date from the largest id down |
| EntryStore.ListFails | crates/storage/src/repository.rs:176-180 | `list` fails exactly when a row meeting the filter does not convert, and the error is always `InvalidData` |
| EntryStore.DefaultFilterListsAll | crates/domain/src/models.rs:75-80 | the default filter has no conditions, so an unfiltered listing holds one entry per stored row |
| EntryStore.AddThenList | crates/storage/src/repository.rs:291-312 | adding one USD entry to an empty table and listing without a filter gives back exactly that entry, under id 1 |
| EntryStore.AddedEntryIsListed | crates/storage/src/repository.rs:86-193 | after a successful `add`, any listing that succeeds and whose filter the entry meets contains it |
| LegacyStore.LegacyWithId | crates/storage/src/lib.rs:115-123 | the older crate's stored entry carries the id and exactly the new entry's fields |
| LegacyStore.LegacyAdd | crates/storage/src/lib.rs:98-124 | the older `add` stores the cents as given, and fails only with `Storage`, leaving the table unchanged |
| LegacyStore.LegacyDecodeRow | crates/storage/src/lib.rs:165-187 | an older row converts exactly when its kind tag is known and its date parses; amount, category and note are taken as stored |
| LegacyStore.LegacyRowRoundTrip | crates/storage/src/lib.rs:98-187 | every row the older `add` writes converts back to the entry added, cents included, for every entry |
| LegacyStore.LegacyMatchesDecoded | crates/storage/src/lib.rs:130-141 | the older text conditions say what the filter means for the converted entry |
| LegacyStore.LegacyListExact | crates/storage/src/lib.rs:126-191 | when the older `list` succeeds, it lists exactly the stored entries that meet every present condition |
| LegacyStore.LegacyListOrdered | crates/storage/src/lib.rs:149 | the older listing runs from the latest date down, and within a date from the largest id down |
| LegacyStore.LegacyListFails | crates/storage/src/lib.rs:165-187 | the older `list` fails exactly when a selected row has an unknown kind tag or a date that does not parse, always with `InvalidData` |
| LegacyStore.LegacyAddThenList | crates/storage/src/lib.rs:208-231 | adding an entry to an empty table and listing it unfiltered gives back exactly that entry |
| LegacyStore.StoredRowMatches | crates/storage/src/lib.rs:130-141 | whether the row stored for an entry meets the conditions is what the filter says of that entry |
| LegacyStore.DateRangeExample | crates/storage/src/lib.rs:270-314 | of entries on 1, 10 and 20 January 2024, the range 5 to 15 January lists only the 10 January one (200 cents) |
| LegacyStore.CategoryFilterExample | crates/storage/src/lib.rs:233-268 | of a "food" and a "salary" entry, the category "food" lists only the food entry |
| Migrations.Pending | crates/storage/src/repository.rs:62-65 | the loop visits exactly the listed migrations whose version is not yet applied |
| Migrations.ApplyFrom | crates/storage/src/repository.rs:62-81 | every loop failure is `Storage`, and what was recorded before the loop is never lost |
| Migrations.AppliedSet | crates/storage/src/repository.rs:46-60 | the applied set holds exactly the versions recorded in `schema_migrations` |
| Migrations.OutcomeCons | crates/storage/src/repository.rs:66-78 | committing one migration's transaction and then reaching an outcome of the rest is an outcome of the whole pending list |
| Migrations.ApplyFromOutcome | crates/storage/src/repository.rs:62-81 | pending migrations commit in list order, script and version together, up to the first whose transaction fails; that one leaves no trace, earlier commits stay, and the run succeeds exactly when none failed |
| Migrations.ApplyMigrationsOutcome | crates/storage/src/repository.rs:35-82 | the same outcome for `apply_migrations`, starting from the versions already in the table |
| Migrations.AllAppliedIsNoOp | crates/storage/src/repository.rs:62-65 | with every version already applied, nothing runs and the run succeeds |
| Migrations.OkRecordsAll | crates/storage/src/repository.rs:62-81 | a successful run has recorded every listed version and keeps every earlier record |
| Migrations.RerunIsNoOp | crates/storage/src/repository.rs:35-82 | after a successful run, running the migrations again changes nothing, whatever the scripts would do |
| Migrations.UpgradeFromLegacy | crates/storage/src/repository.rs:16-19 | on a database the older crate created, only `002_users.sql` runs; on a fresh one, both scripts run in order |
| Repository.Open | crates/storage/src/repository.rs:27-33 | `new` fails with `Storage` on a connection error and touches nothing; a successful open leaves every listed version recorded; rows are never touched |
| Repository.OpenTwice | crates/storage/src/repository.rs:27-33 | opening an already-migrated database again applies nothing |
| Repository.MigrationListsDistinct | crates/storage/src/lib.rs:7 | both migration lists have distinct versions, and the older list is the first entry of the newer one |
| UserStore.CreateUser | crates/storage/src/repository.rs:197-218 | creation fails with "Hashing failed: …" when hashing fails, with `Storage` on a write failure or a taken username, and then leaves the table unchanged; otherwise it appends the user's row with the hash and returns that username under a fresh id |
| UserStore.Lookup | crates/storage/src/repository.rs:221-234 | the lookup finds a stored row with that username exactly when one exists |
| UserStore.VerifyUser | crates/storage/src/repository.rs:220-252 | an unknown user is `Ok(None)`; for the first row with that name, a stored hash that does not parse is `Err(Storage("Invalid hash: " + message))`, a parsed hash that rejects the password is `Ok(None)`, and one that accepts it is `Ok(Some(User(id, username)))` |
| UserStore.LexLessIsStrictWeakOrder | crates/storage/src/repository.rs:257 | `ORDER BY username` sorts by a strict weak order |
| UserStore.ListUsersSorted | crates/storage/src/repository.rs:254-267 | `list_users` returns every stored username, each as often as stored, in ascending order |
| UserStore.CreateThenVerify | crates/storage/src/repository.rs:351-382 | a user just created verifies with its password and not with another one the scheme rejects |
| UserStore.LookupAppended | crates/storage/src/repository.rs:221-234 | a username not yet stored is found in the row just appended for it |
| UserStore.CreatedUserIsListed | crates/storage/src/repository.rs:377-379 | a created user appears in `list_users` |
| Event.HandleEvent | crates/ui/src/event.rs:21-39 | only key presses give actions; Ctrl+q and Ctrl+c are exactly the quit chords; a character becomes `InputChar` of itself exactly when no modifier is held; no key gives `Go` |
| Event.EveryActionHasAKey | crates/ui/src/event.rs:24-34 | every action except `None`, `Go` and `Cancel` is produced by some key press |
| Event.FixedKeys | crates/ui/src/event.rs:26-33 | Tab, BackTab, the arrows, Backspace and Enter map to their actions whatever modifiers are held |
| Event.ModifiedCharIgnored | crates/ui/src/event.rs:34-35 | a character typed with a modifier, other than a quit chord, maps to nothing |
| Event.UpperCaseLetterDropped | crates/ui/src/event.rs:34 | an upper-case letter, which arrives with Shift held, maps to nothing |
| Event.HandleEventShiftAware | crates/ui/src/event.rs:21-39 | the mapping with Shift alone accepted for typed characters: a character becomes `InputChar` exactly when at most Shift is held |
| Event.ShiftAwareTypesEveryChar | crates/ui/src/event.rs:34 | with Shift accepted, every character can be typed, and every other event maps as before |
| Login.NewLogin | crates/ui/src/screens/login.rs:20-32 | a fresh login screen focuses the user picker, closed, with an empty password, offering alice, bob and charlie with the first selected |
| Login.FocusCycle | crates/ui/src/screens/login.rs:34-56 | focus moves backward as the inverse of forward, and four steps visit all four elements and come back |
| Login.FocusNext | crates/ui/src/screens/login.rs:34-44 | an open drop-down locks focus; otherwise focus advances one step |
| Login.FocusPrev | crates/ui/src/screens/login.rs:46-56 | an open drop-down locks focus; otherwise focus moves back one step |
| Login.Activate | crates/ui/src/screens/login.rs:58-74 | Enter toggles the drop-down exactly on the picker, opens the create-user screen exactly on its button, and goes to the dashboard exactly on the password field or the login button |
| Login.SelectedUserLabel | crates/ui/src/screens/login.rs:76-81 | the label is the selected name when the selection is in range, and "Select user" otherwise |
| Login.DropdownLines | crates/ui/src/screens/login.rs:83-97 | the drop-down shows the first min(n, 4) names, each indented by two spaces, highlighting exactly the selected index |
| Login.DropdownHighlight | crates/ui/src/screens/login.rs:83-97 | at most one line is highlighted, and one is exactly when the selection is among the first four names |
| Login.HandleAction | crates/ui/src/screens/login.rs:219-263 | Quit exactly on `Quit`; screen changes only on Enter; focus moves only with the drop-down closed; the selection moves only while it is open, and stays in range; the password changes only when focused; the drop-down changes only on Enter on the picker or on `Cancel`; in the open drop-down Down selects the next name and Up the previous one, when there is one; a character typed into the focused password field is appended, and Backspace drops its last character, if any |
| Login.TabBackTab | crates/ui/src/screens/login.rs:228-235 | with the drop-down closed, Tab then BackTab restores the screen |
| Login.TypeThenDelete | crates/ui/src/screens/login.rs:249-260 | typing into the password field and deleting restores it |
| Login.NavigateDropdown | crates/ui/src/screens/login.rs:236-247 | in the open drop-down, down then up returns to the same name when the move down was possible; moves stop at both ends |
| Login.ToggleDropdown | crates/ui/src/screens/login.rs:222-227 | Enter on the picker opens the drop-down, and a second Enter or `Cancel` restores the screen |
| Login.LoginPaths | crates/ui/src/screens/login.rs:58-74 | from a fresh screen, Tab and Enter reach the dashboard, and three Tabs and Enter reach the create-user screen |
| CreateUserForm.NewCreateUser | crates/ui/src/screens/create_user.rs:18-26 | a fresh form focuses the login field and every field is empty |
| CreateUserForm.WithFieldText | crates/ui/src/screens/create_user.rs:59-75 | setting one text field changes that field only |
| CreateUserForm.FocusCycle | crates/ui/src/screens/create_user.rs:28-46 | focus moves backward as the inverse of forward, and five steps visit all five elements and come back |
| CreateUserForm.Activate | crates/ui/src/screens/create_user.rs:48-57 | Enter does nothing exactly in a text field; on either button it returns to the login screen |
| CreateUserForm.InputChar | crates/ui/src/screens/create_user.rs:59-66 | a typed character is appended to the focused text field and to no other |
| CreateUserForm.Backspace | crates/ui/src/screens/create_user.rs:68-75 | Backspace removes the last character of the focused text field, if any, and touches no other |
| CreateUserForm.HandleAction | crates/ui/src/screens/create_user.rs:181-203 | Tab, Right and Down move forward; BackTab, Left and Up move back; only these move focus; only Enter on a button changes screen (to login); only typing or Backspace changes a field, and only the focused one |
| CreateUserForm.ForwardThenBack | crates/ui/src/screens/create_user.rs:77-83 | any forward key followed by any backward key, in either order, restores the form |
| CreateUserForm.TypeThenDelete | crates/ui/src/screens/create_user.rs:59-75 | typing a character into a text field and deleting it restores the form |
| CreateUserForm.TypeWord | crates/ui/src/screens/create_user.rs:59-66 | typing a word appends it to the focused field and changes no other field |
| Dashboard.Refresh | crates/ui/src/screens/dashboard.rs:24-33 | a reload lists with the default filter; a failed listing changes nothing and passes the error on; otherwise the list is replaced, an empty list clears the selection, a new selection starts at the top, and an existing one is kept |
| Dashboard.RefreshShowsAllRows | crates/ui/src/screens/dashboard.rs:24-33 | a successful reload shows one entry per stored row, with a valid selection whenever the old one still fits |
| Dashboard.RefreshIdempotent | crates/ui/src/screens/dashboard.rs:24-33 | reloading twice from the same store is the same as reloading once |
| Dashboard.NavDown | crates/ui/src/screens/dashboard.rs:102-117 | Down or Tab moves a selection `i` to `i + 1` while that is in the list, wraps past the last to 0, selects 0 when nothing is selected, and always lands in range; an empty list ignores it |
| Dashboard.NavUp | crates/ui/src/screens/dashboard.rs:118-133 | Up or BackTab moves a selection `i > 0` to `i - 1`, wraps from 0 to the last entry, selects 0 when nothing is selected, and keeps a valid selection valid; an empty list ignores it |
| Dashboard.NavInverse | crates/ui/src/screens/dashboard.rs:102-133 | on a valid selection, up undoes down and down undoes up |
| Dashboard.NavWraps | crates/ui/src/screens/dashboard.rs:106-108 | down from the last entry reaches the first, and up from the first reaches the last |
| Dashboard.Init | crates/ui/src/screens/dashboard.rs:37-39 | entering the dashboard reloads it: a failure leaves it as it was, and success shows the unfiltered listing with a valid selection on a fresh screen |
| Dashboard.HandleAction | crates/ui/src/screens/dashboard.rs:95-136 | Quit exactly on `Quit`; no screen change; only 'r', the arrows and Tab/BackTab change the state; 'r' reloads; Down and Tab apply the wrapping step down, Up and BackTab the wrapping step up; navigation keeps a valid selection valid |
| App.NewApp | crates/ui/src/app.rs:20-30 | the application starts on the login screen, not quitting, with the given store |
| App.SwitchScreen | crates/ui/src/app.rs:57-65 | switching activates the target; only the dashboard's `init` does anything, and it reloads; the other screens keep the trait's default `init` |
| App.Dispatch | crates/ui/src/app.rs:41-46 | an action reaches only the active screen; the other screens, the active id and the store are unchanged |
| App.Apply | crates/ui/src/app.rs:40-55 | the returned flag is the quit flag, set exactly when it already was or the action was `Quit`; a `Go(id)` answer makes `id` active; screens change only on Enter and along login to dashboard or create-user, and create-user to login; the dashboard is never left; the store is never written |
| App.ApplyAllInvariants | crates/ui/src/app.rs:40-55 | over any sequence of actions, the quit flag is set exactly when some action was `Quit` (it is never cleared), the store is unchanged, and the dashboard is never left |
| App.TabEnterOpensDashboard | crates/ui/src/app.rs:40-65 | from a fresh application, Tab then Enter opens the dashboard, reloaded from the store |
| App.CreateUserRoundTrip | crates/ui/src/app.rs:40-65 | three Tabs and Enter open the create-user form, and BackTab then Enter return to login |

## Left out

- Years outside 0..=9999: `CalDate` keeps the year to four digits. chrono formats other years with a sign or more digits, and then text order is no longer date order.
- `ParseDate` accepts only the canonical `YYYY-MM-DD` spelling. chrono's `%Y-%m-%d` parser is more lenient, for example about field widths, and stored text is always canonical. chrono's error text is replaced by a fixed `DATE_PARSE_MESSAGE`.
- `Numerals.Wrap64`: `* 100` in `from_money` (crates/storage/src/mapper.rs:23) is modelled as a release build's wrap-around. A debug build panics on overflow instead.
- String lengths are counted in characters, not UTF-8 bytes. This matters only for the password mask in the screens' rendering, which is not modelled.
- SQLite internals are not modelled:
  - the `CREATE TABLE IF NOT EXISTS schema_migrations` statement and its failure;
  - prepare, step and column-read failures inside `list`, `verify_user` and `list_users`;
  - the random rowid SQLite picks once the largest rowid is `i64::MAX`. The model reports a full table instead.
  - The migration scripts' SQL is not modelled either. A script's outcome is the `ScriptRunner` parameter.
- The `users.username` column is assumed to be unique. `migrations/002_users.sql` is not part of this model.
- Argon2 hashing, `PasswordHash::new` and verification are the `PasswordScheme` parameter, and `OsRng`'s salt is the `salt` parameter. Their internals are not modelled.
- `rusty_money` and `rust_decimal` are not modelled. `Money` is a count of minor units plus a currency code and exponent. Only the rendering `from_money` reads is modelled.
- The `EntryRepository`/`UserRepository` traits and `Box<dyn …>` dispatch are not modelled. The application holds the entry table directly.
- Rendering, `crates/ui/src/layout.rs`, `crates/ui/src/lib.rs` (the terminal loop) and `crates/app/src/main.rs` are left out as I/O.
- `crates/ui/src/lib.rs` builds `App` with arguments that `App::new` (crates/ui/src/app.rs:21) does not take. The model follows `App::new`.
- `Action::Cancel`: the login screen matches on it (crates/ui/src/screens/login.rs:222), but the `Action` enum of crates/ui/src/event.rs:6-19 does not declare it. The model declares it so the login screen can be modelled, and no key produces it.
- `crates/domain/src/lib.rs` does not re-export the `User` and `UserRepository` that crates/storage/src/repository.rs imports. The model gives them to the store directly.
- The older crate's own kind codec (crates/storage/src/lib.rs:78-93) is identical to the mapper's, and is modelled once as `Mapper.KindToStr`/`Mapper.KindFromStr`.
- A blank category is rejected by `Category::new`, not by `NewEntry::validate`. The model follows the code: `Validate` reads only the amount.
- `Mapper.FromMoneyRoundTrip` holds for USD only. `Mapper.NoMinorUnitsScaledBy100` shows what happens to a currency without minor units. Currencies with three minor-unit digits are not spelled out.
- `Dashboard.Refresh` keeps an existing selection when the list shrinks, as the code does. The index can then point past the end, and `ValidSelection` is stated only under the condition that the old selection still fits.

## Findings

| source | as written | input that shows it | evidently intended | confidence | as-written member | corrected member |
|---|---|---|---|---|---|---|
| crates/ui/src/event.rs:34 | a character becomes `InputChar` only when no modifier is held | the terminal library reports an upper-case letter such as 'A' with the Shift modifier (whether shifted symbols carry it too depends on the platform), so `Char('A')` with `{Shift}` maps to `Action::None` and can never be typed into the password, login or repeat fields | Shift alone should still type the character | medium; not executed | Event.UpperCaseLetterDropped | Event.ShiftAwareTypesEveryChar |

=== FILE: app.dfy ===
/** The application state machine: which screen is active, the three screens'
    states, the quit flag, and the entry store the screens read. An action
    goes to the active screen only; the screen's answer may set the quit
    flag or switch screens, and switching runs the new screen's `init`. */
module App {
  import opened Wrappers
  import opened Screens
  import opened Event
  import opened EntryTable
  import opened Login
  import opened CreateUserForm
  import opened Dashboard

  datatype App = App(
    shouldQuit: bool,
    active: ScreenId,
    dashboard: DashboardScreen,
    login: LoginScreen,
    createUser: CreateUserScreen,
    repo: Table)

  /** `App::new`: the login screen first, every screen fresh. */
  function NewApp(repo: Table): (app: App)
    ensures !app.shouldQuit && app.active == ScreenId.Login && app.repo == repo
    ensures ValidSelection(app.dashboard)
  {
    App(false, ScreenId.Login, EMPTY_DASHBOARD, NewLogin(), NewCreateUser(), repo)
  }

  /** `switch_screen`: activate `id` and run its `init`, ignoring a failure.
      Only the dashboard's `init` does anything (it reloads); the other two
      screens keep the default, which succeeds without change. */
  function SwitchScreen(app: App, id: ScreenId): (r: App)
    ensures r.active == id
    ensures r.shouldQuit == app.shouldQuit && r.repo == app.repo
    ensures r.login == app.login && r.createUser == app.createUser
    ensures id == ScreenId.Dashboard ==> r.dashboard == Refresh(app.dashboard, app.repo).0
    ensures id != ScreenId.Dashboard ==> r.dashboard == app.dashboard
  {
    var app' := app.(active := id);
    match id
    case Dashboard => app'.(dashboard := Init(app.dashboard, app.repo).0)
    case Login => app'
    case CreateUser => app'
  }

  /** The active screen's answer to an action, with that screen's new
      state put back. */
  function Dispatch(app: App, a: Action): (r: (App, ScreenResult))
    ensures r.0.active == app.active && r.0.shouldQuit == app.shouldQuit && r.0.repo == app.repo
    ensures app.active != ScreenId.Dashboard ==> r.0.dashboard == app.dashboard
    ensures app.active != ScreenId.Login ==> r.0.login == app.login
    ensures app.active != ScreenId.CreateUser ==> r.0.createUser == app.createUser
    ensures r.1 == ScreenResult.Quit <==> a == Action.Quit
  {
    match app.active
    case Dashboard =>
      var (d, res) := Dashboard.HandleAction(app.dashboard, a, app.repo);
      (app.(dashboard := d), res)
    case Login =>
      var (l, res) := Login.HandleAction(app.login, a);
      (app.(login := l), res)
    case CreateUser =>
      var (c, res) := CreateUserForm.HandleAction(app.createUser, a);
      (app.(createUser := c), res)
  }

  /** `apply`: hand the action to the active screen, act on its answer, and
      report whether the application should quit. */
  function Apply(app: App, a: Action): (r: (App, bool))
    ensures r.1 == r.0.shouldQuit
    ensures r.0.shouldQuit <==> app.shouldQuit || a == Action.Quit
    ensures r.0.repo == app.repo
    ensures r.0.active != app.active ==>
              && a == Action.Activate
              && (app.active == ScreenId.Login ==> r.0.active in {ScreenId.Dashboard, ScreenId.CreateUser})
              && (app.active == ScreenId.CreateUser ==> r.0.active == ScreenId.Login)
    ensures app.active == ScreenId.Dashboard ==> r.0.active == ScreenId.Dashboard
    ensures app.active != ScreenId.Login ==> r.0.login == app.login
    ensures app.active != ScreenId.CreateUser ==> r.0.createUser == app.createUser
    ensures Dispatch(app, a).1.Go? ==> r.0.active == Dispatch(app, a).1.id
    ensures Dispatch(app, a).1 == ScreenResult.None ==> r.0 == Dispatch(app, a).0
  {
    var (app', res) := Dispatch(app, a);
    var app'' :=
      match res
      case Quit => app'.(shouldQuit := true)
      case Go(id) => SwitchScreen(app', id)
      case None => app';
    (app'', app''.shouldQuit)
  }

  /** The state after a sequence of actions. */
  function ApplyAll(app: App, actions: seq<Action>): App
    decreases |actions|
  {
    if |actions| == 0 then app else ApplyAll(Apply(app, actions[0]).0, actions[1..])
  }

  /** Over any sequence of actions: the quit flag is set exactly when it was
      already set or some action was Quit (it is never cleared), the entry
      store is never written, and once on the dashboard the application
      stays there. */
  lemma {:induction false} ApplyAllInvariants(app: App, actions: seq<Action>)
    ensures ApplyAll(app, actions).shouldQuit <==> app.shouldQuit || Action.Quit in actions
    ensures ApplyAll(app, actions).repo == app.repo
    ensures app.active == ScreenId.Dashboard ==> ApplyAll(app, actions).active == ScreenId.Dashboard
    decreases |actions|
  {
    if |actions| > 0 {
      ApplyAllInvariants(Apply(app, actions[0]).0, actions[1..]);
      assert actions == [actions[0]] + actions[1..];
    }
  }

  /** From a fresh application, Tab then Enter on the login screen opens
      the dashboard, which has reloaded from the store. */
  lemma TabEnterOpensDashboard(repo: Table)
    ensures var app1 := Apply(NewApp(repo), Action.FocusNext).0;
            var app2 := Apply(app1, Action.Activate).0;
            && app2.active == ScreenId.Dashboard
            && !app2.shouldQuit
            && app2.dashboard == Refresh(EMPTY_DASHBOARD, repo).0
  {
    var app1 := Apply(NewApp(repo), Action.FocusNext).0;
    assert app1.active == ScreenId.Login && app1.login.focus == Password;
  }

  /** From a fresh application, three Tabs and Enter open the create-user
      form; BackTab (onto its back button) and Enter return to the login
      screen. */
  lemma CreateUserRoundTrip(repo: Table)
    ensures var app3 := Apply(Apply(Apply(NewApp(repo), Action.FocusNext).0,
                                    Action.FocusNext).0, Action.FocusNext).0;
            var app4 := Apply(app3, Action.Activate).0;
            && app4.active == ScreenId.CreateUser
            && Apply(Apply(app4, Action.FocusPrev).0, Action.Activate).0.active == ScreenId.Login
  {
    var app1 := Apply(NewApp(repo), Action.FocusNext).0;
    assert app1.active == ScreenId.Login && app1.login.focus == Password;
    var app2 := Apply(app1, Action.FocusNext).0;
    assert app2.active == ScreenId.Login && app2.login.focus == LoginButton;
    var app3 := Apply(app2, Action.FocusNext).0;
    assert app3.active == ScreenId.Login && app3.login.focus == CreateUserButton;
    var app4 := Apply(app3, Action.Activate).0;
    assert app4.active == ScreenId.CreateUser && app4.createUser.focus == LoginField;
    var app5 := Apply(app4, Action.FocusPrev).0;
    assert app5.active == ScreenId.CreateUser && app5.createUser.focus == BackButton;
  }
}

=== FILE: calendar.dfy ===
/** Calendar dates as `chrono::NaiveDate` holds them, and their storage
    text in the `%Y-%m-%d` format (`YYYY-MM-DD`). The database compares and
    sorts that text, so this module also proves that, for four-digit years,
    the text order of two formatted dates is their chronological order. */
module Calendar {
  import opened Wrappers
  import opened Numerals
  import opened Text

  datatype Date = Date(year: int, month: int, day: int)

  /** Proleptic Gregorian leap years. */
  predicate IsLeapYear(y: int) {
    y % 4 == 0 && (y % 100 != 0 || y % 400 == 0)
  }

  function DaysInMonth(y: int, m: int): (n: int)
    requires 1 <= m <= 12
    ensures 28 <= n <= 31
  {
    if m == 2 then (if IsLeapYear(y) then 29 else 28)
    else if m == 4 || m == 6 || m == 9 || m == 11 then 30
    else 31
  }

  /** A real calendar day whose year `%Y` renders in exactly four digits. */
  predicate IsValid(d: Date) {
    && 0 <= d.year <= 9999
    && 1 <= d.month <= 12
    && 1 <= d.day <= DaysInMonth(d.year, d.month)
  }

  type CalDate = d: Date | IsValid(d) witness Date(1970, 1, 1)

  /** Strict chronological order (`NaiveDate`'s `<`). */
  predicate Before(a: Date, b: Date) {
    || a.year < b.year
    || (a.year == b.year && a.month < b.month)
    || (a.year == b.year && a.month == b.month && a.day < b.day)
  }

  /** `date.format("%Y-%m-%d")`. */
  function Format(d: CalDate): (s: string)
    ensures |s| == 10 && s[4] == '-' && s[7] == '-'
  {
    Pad(d.year, 4) + ("-" + (Pad(d.month, 2) + ("-" + Pad(d.day, 2))))
  }

  /** `NaiveDate::parse_from_str(s, "%Y-%m-%d")` on the canonical spelling:
      four year digits, two month digits, two day digits, separated by '-',
      naming a real day. */
  function ParseDate(s: string): (r: Option<CalDate>)
    ensures r.Some? ==> |s| == 10
  {
    if |s| == 10 && s[4] == '-' && s[7] == '-'
       && AllDigits(s[..4]) && AllDigits(s[5..7]) && AllDigits(s[8..])
    then
      var d := Date(Value(s[..4]), Value(s[5..7]), Value(s[8..]));
      if IsValid(d) then Some(d) else None
    else
      None
  }

  lemma FormatParts(d: CalDate)
    ensures Format(d)[..4] == Pad(d.year, 4)
    ensures Format(d)[5..7] == Pad(d.month, 2)
    ensures Format(d)[8..] == Pad(d.day, 2)
  {
  }

  /** Parsing the formatted text of a date gives the date back. */
  lemma ParseFormat(d: CalDate)
    ensures ParseDate(Format(d)) == Some(d)
  {
    assert Pow10(2) == 100 && Pow10(4) == 10000;
    ValuePadSmall(d.year, 4);
    ValuePadSmall(d.month, 2);
    ValuePadSmall(d.day, 2);
    ParseParts(Pad(d.year, 4), Pad(d.month, 2), Pad(d.day, 2));
  }

  /** Parsing text assembled from digit fields of the right widths reads
      those fields. */
  lemma ParseParts(y: string, m: string, dd: string)
    requires |y| == 4 && |m| == 2 && |dd| == 2
    requires AllDigits(y) && AllDigits(m) && AllDigits(dd)
    ensures var d := Date(Value(y), Value(m), Value(dd));
            ParseDate(y + ("-" + (m + ("-" + dd)))) == if IsValid(d) then Some(d) else None
  {
    var s := y + ("-" + (m + ("-" + dd)));
    assert |s| == 10 && s[4] == '-' && s[7] == '-';
    assert s[..4] == y;
    assert s[5..7] == m;
    assert s[8..] == dd;
  }

  /** Text the strict parser accepts is the formatted text of what it
      parses to: the canonical spelling of its date. */
  lemma FormatParse(s: string)
    requires ParseDate(s).Some?
    ensures Format(ParseDate(s).value) == s
  {
    var y, m, dd := s[..4], s[5..7], s[8..];
    var d := ParseDate(s).value;
    assert d == Date(Value(y), Value(m), Value(dd));
    PadValue(y);
    PadValue(m);
    PadValue(dd);
    assert Format(d) == y + ("-" + (m + ("-" + dd)));
    SplitDateText(s);
  }

  /** Date text is its three fields joined by the two separators. */
  lemma SplitDateText(s: string)
    requires |s| == 10 && s[4] == '-' && s[7] == '-'
    ensures s == s[..4] + ("-" + (s[5..7] + ("-" + s[8..])))
  {
  }

  lemma FormatInjective(a: CalDate, b: CalDate)
    requires Format(a) == Format(b)
    ensures a == b
  {
    ParseFormat(a);
    ParseFormat(b);
  }

  /** The text order of formatted dates is chronological order; this is
      what makes the `occurred_on >= ?`, `occurred_on <= ?` and
      `ORDER BY occurred_on` clauses of the entry queries compare dates. */
  lemma FormatOrder(a: CalDate, b: CalDate)
    ensures LexLess(Format(a), Format(b)) <==> Before(a, b)
  {
    var dayA, dayB := "-" + Pad(a.day, 2), "-" + Pad(b.day, 2);
    var mdA, mdB := Pad(a.month, 2) + dayA, Pad(b.month, 2) + dayB;
    LexSameWidthPrefix(Pad(a.year, 4), Pad(b.year, 4), "-" + mdA, "-" + mdB);
    LexSameWidthPrefix("-", "-", mdA, mdB);
    LexSameWidthPrefix(Pad(a.month, 2), Pad(b.month, 2), dayA, dayB);
    LexSameWidthPrefix("-", "-", Pad(a.day, 2), Pad(b.day, 2));
    LexLessPad(a.year, b.year, 4);
    LexLessPad(a.month, b.month, 2);
    LexLessPad(a.day, b.day, 2);
    PadInjective(a.year, b.year, 4);
    PadInjective(a.month, b.month, 2);
  }
}

=== FILE: create_user.dfy ===
/** The create-user form: three text fields (login, password, repeated
    password) and two buttons, with focus cycling through the five. The
    form does not create anything: both buttons return to the login
    screen. */
module CreateUserForm {
  import opened Screens
  import opened Event

  datatype CreateUserFocus = LoginField | PasswordField | RepeatField | CreateButton | BackButton

  datatype CreateUserScreen = CreateUserScreen(
    focus: CreateUserFocus,
    loginInput: string,
    passwordInput: string,
    repeatInput: string)

  /** A fresh form: the login field focused, every field empty. */
  function NewCreateUser(): (s: CreateUserScreen)
    ensures s.focus == LoginField && IsTextField(s.focus)
    ensures forall f :: IsTextField(f) ==> FieldText(s, f) == ""
  {
    CreateUserScreen(LoginField, "", "", "")
  }

  predicate IsTextField(f: CreateUserFocus) {
    f == LoginField || f == PasswordField || f == RepeatField
  }

  /** The contents of a text field. */
  function FieldText(s: CreateUserScreen, f: CreateUserFocus): string
    requires IsTextField(f)
  {
    match f
    case LoginField => s.loginInput
    case PasswordField => s.passwordInput
    case RepeatField => s.repeatInput
  }

  /** The form with the text field `f` replaced. */
  function WithFieldText(s: CreateUserScreen, f: CreateUserFocus, text: string): (r: CreateUserScreen)
    requires IsTextField(f)
    ensures r.focus == s.focus
    ensures FieldText(r, f) == text
    ensures forall g :: IsTextField(g) && g != f ==> FieldText(r, g) == FieldText(s, g)
  {
    match f
    case LoginField => s.(loginInput := text)
    case PasswordField => s.(passwordInput := text)
    case RepeatField => s.(repeatInput := text)
  }

  /** The tab order: login, password, repeat, create, back. */
  function NextFocus(f: CreateUserFocus): CreateUserFocus {
    match f
    case LoginField => PasswordField
    case PasswordField => RepeatField
    case RepeatField => CreateButton
    case CreateButton => BackButton
    case BackButton => LoginField
  }

  function PrevFocus(f: CreateUserFocus): CreateUserFocus {
    match f
    case LoginField => BackButton
    case PasswordField => LoginField
    case RepeatField => PasswordField
    case CreateButton => RepeatField
    case BackButton => CreateButton
  }

  /** Backward is the inverse of forward, and five steps visit every
      element once and come back. */
  lemma FocusCycle(f: CreateUserFocus)
    ensures PrevFocus(NextFocus(f)) == f && NextFocus(PrevFocus(f)) == f
    ensures NextFocus(NextFocus(NextFocus(NextFocus(NextFocus(f))))) == f
    ensures {f, NextFocus(f), NextFocus(NextFocus(f)), NextFocus(NextFocus(NextFocus(f))),
             NextFocus(NextFocus(NextFocus(NextFocus(f))))}
            == {LoginField, PasswordField, RepeatField, CreateButton, BackButton}
  {
  }

  /** `activate`: both buttons go back to the login screen; Enter in a text
      field does nothing. */
  function Activate(s: CreateUserScreen): (r: ScreenResult)
    ensures r == ScreenResult.None <==> IsTextField(s.focus)
    ensures r != ScreenResult.None ==> r == ScreenResult.Go(Login)
  {
    match s.focus
    case CreateButton => ScreenResult.Go(Login)
    case BackButton => ScreenResult.Go(Login)
    case _ => ScreenResult.None
  }

  /** `input_char`: append to the focused text field; on a button, nothing. */
  function InputChar(s: CreateUserScreen, ch: char): (r: CreateUserScreen)
    ensures r.focus == s.focus
    ensures IsTextField(s.focus) ==> FieldText(r, s.focus) == FieldText(s, s.focus) + [ch]
    ensures forall g :: IsTextField(g) && g != s.focus ==> FieldText(r, g) == FieldText(s, g)
  {
    if IsTextField(s.focus) then WithFieldText(s, s.focus, FieldText(s, s.focus) + [ch])
    else s
  }

  /** `backspace`: drop the last character of the focused text field, if
      any; on a button, nothing. */
  function Backspace(s: CreateUserScreen): (r: CreateUserScreen)
    ensures r.focus == s.focus
    ensures IsTextField(s.focus) && |FieldText(s, s.focus)| > 0 ==>
              FieldText(r, s.focus) + [FieldText(s, s.focus)[|FieldText(s, s.focus)| - 1]] == FieldText(s, s.focus)
    ensures forall g :: IsTextField(g) && (g != s.focus || |FieldText(s, g)| == 0) ==>
              FieldText(r, g) == FieldText(s, g)
  {
    if IsTextField(s.focus) && |FieldText(s, s.focus)| > 0 then
      var text := FieldText(s, s.focus);
      WithFieldText(s, s.focus, text[..|text| - 1])
    else s
  }

  /** `handle_action` for the form: Tab, Right and Down move forward; BackTab,
      Left and Up move back. */
  function HandleAction(s: CreateUserScreen, a: Action): (r: (CreateUserScreen, ScreenResult))
    ensures r.1 == ScreenResult.Quit <==> a == Action.Quit
    ensures r.1.Go? <==> a == Action.Activate && !IsTextField(s.focus)
    ensures r.1.Go? ==> r.1.id == Login
    ensures a in {Action.FocusNext, Action.NavRight, Action.NavDown} ==> r.0 == s.(focus := NextFocus(s.focus))
    ensures a in {Action.FocusPrev, Action.NavLeft, Action.NavUp} ==> r.0 == s.(focus := PrevFocus(s.focus))
    ensures r.0.focus != s.focus ==>
              a in {Action.FocusNext, Action.NavRight, Action.NavDown, Action.FocusPrev, Action.NavLeft, Action.NavUp}
    ensures forall g :: IsTextField(g) && FieldText(r.0, g) != FieldText(s, g) ==>
              g == s.focus && (a.InputChar? || a == Action.Backspace)
  {
    match a
    case Quit => (s, ScreenResult.Quit)
    case FocusNext => (s.(focus := NextFocus(s.focus)), ScreenResult.None)
    case NavRight => (s.(focus := NextFocus(s.focus)), ScreenResult.None)
    case NavDown => (s.(focus := NextFocus(s.focus)), ScreenResult.None)
    case FocusPrev => (s.(focus := PrevFocus(s.focus)), ScreenResult.None)
    case NavLeft => (s.(focus := PrevFocus(s.focus)), ScreenResult.None)
    case NavUp => (s.(focus := PrevFocus(s.focus)), ScreenResult.None)
    case Activate => (s, Activate(s))
    case InputChar(ch) => (InputChar(s, ch), ScreenResult.None)
    case Backspace => (Backspace(s), ScreenResult.None)
    case _ => (s, ScreenResult.None)
  }

  /** Moving forward and then back, by any pair of keys of the two groups,
      restores the form. */
  lemma ForwardThenBack(s: CreateUserScreen, fwd: Action, back: Action)
    requires fwd in {Action.FocusNext, Action.NavRight, Action.NavDown}
    requires back in {Action.FocusPrev, Action.NavLeft, Action.NavUp}
    ensures HandleAction(HandleAction(s, fwd).0, back).0 == s
    ensures HandleAction(HandleAction(s, back).0, fwd).0 == s
  {
    FocusCycle(s.focus);
  }

  /** Typing a character into a text field and deleting it restores the
      form. */
  lemma TypeThenDelete(s: CreateUserScreen, ch: char)
    requires IsTextField(s.focus)
    ensures HandleAction(HandleAction(s, Action.InputChar(ch)).0, Action.Backspace).0 == s
  {
    var t := HandleAction(s, Action.InputChar(ch)).0;
    var text := FieldText(t, s.focus);
    assert text[..|text| - 1] == FieldText(s, s.focus);
  }

  /** Typing a word into a freshly focused field appends it there and
      nowhere else. */
  lemma {:induction false} TypeWord(s: CreateUserScreen, word: string)
    requires IsTextField(s.focus)
    ensures var r := TypeAll(s, word);
            && r.focus == s.focus
            && FieldText(r, s.focus) == FieldText(s, s.focus) + word
            && forall g :: IsTextField(g) && g != s.focus ==> FieldText(r, g) == FieldText(s, g)
    decreases |word|
  {
    if |word| > 0 {
      var s1 := HandleAction(s, Action.InputChar(word[0])).0;
      TypeWord(s1, word[1..]);
      assert [word[0]] + word[1..] == word;
    }
  }

  /** Feeding each character of `word` as a typed character. */
  function TypeAll(s: CreateUserScreen, word: string): CreateUserScreen
    decreases |word|
  {
    if |word| == 0 then s else TypeAll(HandleAction(s, Action.InputChar(word[0])).0, word[1..])
  }
}

=== FILE: dashboard.dfy ===
/** The dashboard: the unfiltered list of entries with a selection cursor
    that wraps around at both ends. Reloading asks the entry store for the
    list again. */
module Dashboard {
  import opened Wrappers
  import opened Models
  import opened Screens
  import opened Event
  import opened EntryTable
  import opened EntryStore

  /** The entries shown and the selected index (`ListState`'s selection). */
  datatype DashboardScreen = DashboardScreen(entries: seq<Entry>, selected: Option<nat>)

  const EMPTY_DASHBOARD: DashboardScreen := DashboardScreen([], Option.None)

  const RELOAD_KEY: char := 'r'

  /** A selection exists exactly when there is something to select, and
      points into the list. */
  predicate ValidSelection(s: DashboardScreen) {
    && (s.selected.None? <==> |s.entries| == 0)
    && (s.selected.Some? ==> s.selected.value < |s.entries|)
  }

  /** `refresh_entries`: list with the default filter. A failed listing
      changes nothing; otherwise the list is replaced, an empty list clears
      the selection, and a first non-empty list selects its top entry. An
      existing selection is kept as it is. */
  function Refresh(s: DashboardScreen, t: Table): (r: (DashboardScreen, Result<(), DomainError>))
    ensures r.1.Err? <==> List(t, DEFAULT_FILTER).Err?
    ensures r.1.Err? ==> r.0 == s && r.1.error == List(t, DEFAULT_FILTER).error
    ensures r.1.Ok? ==> r.0.entries == List(t, DEFAULT_FILTER).value
    ensures r.1.Ok? ==>
              && (|r.0.entries| == 0 ==> r.0.selected.None?)
              && (|r.0.entries| > 0 && s.selected.None? ==> r.0.selected == Some(0))
              && (|r.0.entries| > 0 && s.selected.Some? ==> r.0.selected == s.selected)
  {
    match List(t, DEFAULT_FILTER)
    case Err(e) => (s, Err(e))
    case Ok(entries) =>
      var selected :=
        if |entries| == 0 then Option.None
        else if s.selected.None? then Some(0)
        else s.selected;
      (DashboardScreen(entries, selected), Ok(()))
  }

  /** A successful reload shows every stored entry, and leaves a valid
      selection whenever the previous selection still fits the new list. */
  lemma RefreshShowsAllRows(s: DashboardScreen, t: Table)
    ensures Refresh(s, t).1.Ok? ==> |Refresh(s, t).0.entries| == |t.rows|
    ensures Refresh(s, t).1.Ok? && (s.selected.Some? ==> s.selected.value < |t.rows|) ==>
              ValidSelection(Refresh(s, t).0)
  {
    DefaultFilterListsAll(t);
  }

  /** Reloading twice from the same table is the same as reloading once. */
  lemma RefreshIdempotent(s: DashboardScreen, t: Table)
    requires Refresh(s, t).1.Ok?
    ensures Refresh(Refresh(s, t).0, t) == Refresh(s, t)
  {
  }

  /** Down or Tab: the next entry, wrapping from the last to the first; with
      no selection, the first. An empty list ignores the key. */
  function NavDown(s: DashboardScreen): (r: DashboardScreen)
    ensures r.entries == s.entries
    ensures |s.entries| == 0 ==> r == s
    ensures |s.entries| > 0 ==> r.selected.Some? && r.selected.value < |s.entries|
    ensures |s.entries| > 0 && s.selected.None? ==> r.selected == Some(0)
    ensures s.selected.Some? && s.selected.value + 1 < |s.entries| ==> r.selected == Some(s.selected.value + 1)
    ensures s.selected.Some? && s.selected.value + 1 >= |s.entries| > 0 ==> r.selected == Some(0)
  {
    if |s.entries| == 0 then s
    else
      var i :=
        match s.selected
        case Some(i) => if i >= |s.entries| - 1 then 0 else i + 1
        case None => 0;
      s.(selected := Some(i))
  }

  /** Up or BackTab: the previous entry, wrapping from the first to the
      last; with no selection, the first. An empty list ignores the key. */
  function NavUp(s: DashboardScreen): (r: DashboardScreen)
    ensures r.entries == s.entries
    ensures |s.entries| == 0 ==> r == s
    ensures |s.entries| > 0 ==> r.selected.Some?
    ensures |s.entries| > 0 && s.selected.None? ==> r.selected == Some(0)
    ensures |s.entries| > 0 && s.selected.Some? && 0 < s.selected.value ==> r.selected == Some(s.selected.value - 1)
    ensures |s.entries| > 0 && s.selected == Some(0) ==> r.selected == Some(|s.entries| - 1)
    ensures ValidSelection(s) ==> ValidSelection(r)
  {
    if |s.entries| == 0 then s
    else
      var i :=
        match s.selected
        case Some(i) => if i == 0 then |s.entries| - 1 else i - 1
        case None => 0;
      s.(selected := Some(i))
  }

  /** On a valid selection, up undoes down and down undoes up. */
  lemma NavInverse(s: DashboardScreen)
    requires ValidSelection(s) && s.selected.Some?
    ensures NavUp(NavDown(s)) == s
    ensures NavDown(NavUp(s)) == s
  {
  }

  /** Moving down from the last entry reaches the first, and moving up from
      the first reaches the last. */
  lemma NavWraps(s: DashboardScreen)
    requires |s.entries| > 0
    ensures s.selected == Some(|s.entries| - 1) ==> NavDown(s).selected == Some(0)
    ensures s.selected == Some(0) ==> NavUp(s).selected == Some(|s.entries| - 1)
  {
  }

  /** `init`: entering the dashboard reloads it. */
  function Init(s: DashboardScreen, t: Table): (r: (DashboardScreen, Result<(), DomainError>))
    ensures r.1.Err? <==> List(t, DEFAULT_FILTER).Err?
    ensures r.1.Err? ==> r.0 == s
    ensures r.1.Ok? ==> r.0.entries == List(t, DEFAULT_FILTER).value
    ensures r.1.Ok? && s == EMPTY_DASHBOARD ==> ValidSelection(r.0)
  {
    Refresh(s, t)
  }

  /** `handle_action` for the dashboard: `r` reloads (a failed reload is
      ignored), Down/Tab and Up/BackTab move the selection, Ctrl+Q quits.
      The dashboard never asks to switch screens. */
  function HandleAction(s: DashboardScreen, a: Action, t: Table): (r: (DashboardScreen, ScreenResult))
    ensures r.1 == ScreenResult.Quit <==> a == Action.Quit
    ensures !r.1.Go?
    ensures r.0 != s ==> a in {Action.InputChar(RELOAD_KEY), Action.NavDown, Action.FocusNext,
                                Action.NavUp, Action.FocusPrev}
    ensures a == Action.InputChar(RELOAD_KEY) ==> r.0 == Refresh(s, t).0
    ensures a in {Action.NavDown, Action.FocusNext} ==> r.0 == NavDown(s)
    ensures a in {Action.NavUp, Action.FocusPrev} ==> r.0 == NavUp(s)
    ensures ValidSelection(s) && a != Action.InputChar(RELOAD_KEY) ==> ValidSelection(r.0)
  {
    match a
    case Quit => (s, ScreenResult.Quit)
    case InputChar(ch) =>
      if ch == RELOAD_KEY then (Refresh(s, t).0, ScreenResult.None)
      else (s, ScreenResult.None)
    case NavDown => (NavDown(s), ScreenResult.None)
    case FocusNext => (NavDown(s), ScreenResult.None)
    case NavUp => (NavUp(s), ScreenResult.None)
    case FocusPrev => (NavUp(s), ScreenResult.None)
    case _ => (s, ScreenResult.None)
  }
}

=== FILE: entry_store.dfy ===
/** The current repository's entry operations (`EntryRepository` for
    `SqliteRepository`): `add` stores a new entry's column values through
    the mapper, `list` selects, orders and decodes rows into entries with a
    USD amount and a checked category. */
module EntryStore {
  import opened Wrappers
  import opened Numerals
  import opened Text
  import opened Calendar
  import opened Models
  import opened Mapper
  import opened EntryTable
  import opened Sorting

  /** `add`: inserts the kind tag, the amount as cents, the category text,
      the note and the date text, with no validation, and returns the input
      under the assigned id. */
  function Add(t: Table, e: NewEntry, fault: Option<string>): (r: (Table, Result<Entry, DomainError>))
    ensures r.1.Ok? <==> fault.None? && t.nextId <= I64_MAX
    ensures r.1.Err? ==> r.0 == t && r.1.error.Storage?
    ensures r.1.Ok? ==> r.1.value == WithId(e, r.1.value.id)
    ensures r.1.Ok? && WellFormed(t) ==> forall x :: x in t.rows ==> x.id < r.1.value.id.value
    ensures r.1.Ok? ==> |r.0.rows| == |t.rows| + 1 && r.0.rows[..|t.rows|] == t.rows
    ensures r.1.Ok? ==> r.0.rows == t.rows + [EncodeRow(e, r.1.value.id.value)]
    ensures WellFormed(t) ==> WellFormed(r.0)
  {
    var (t', res) := InsertRow(t, KindToStr(e.kind), FromMoney(e.amount), AsStr(e.category),
                               e.note, Format(e.occurredOn), fault);
    match res
    case Err(err) => (t', Err(err))
    case Ok(id) =>
      assert t'.rows[..|t.rows|] == t.rows;
      (t', Ok(WithId(e, EntryId(id))))
  }

  /** The stored row `add` writes for `e` under `id`. */
  function EncodeRow(e: NewEntry, id: I64): Row {
    Row(id, KindToStr(e.kind), FromMoney(e.amount), AsStr(e.category), e.note, Format(e.occurredOn))
  }

  /** The row conversion of `list`: the kind tag, then the category, then
      the date are checked, the first failure being reported, always as
      `InvalidData`; a row that passes yields the entry whose stored
      spelling it is. */
  function DecodeRow(x: Row): (r: Result<Entry, DomainError>)
    ensures r.Ok? <==> KindFromStr(x.kind).Ok? && !IsBlank(x.category) && ParseDate(x.occurredOn).Some?
    ensures r.Err? ==> r.error.InvalidData?
    ensures KindFromStr(x.kind).Err? ==> r == Err(InvalidData("unknown entry kind: " + x.kind))
    ensures KindFromStr(x.kind).Ok? && IsBlank(x.category) ==> r == Err(InvalidData(EMPTY_CATEGORY_MESSAGE))
    ensures r.Ok? ==>
              && r.value.id == EntryId(x.id)
              && KindToStr(r.value.kind) == x.kind
              && r.value.amount == Money(x.amountCents, USD)
              && AsStr(r.value.category) == x.category
              && r.value.note == x.note
              && Format(r.value.occurredOn) == x.occurredOn
  {
    var kind :- KindFromStr(x.kind);
    var category :- NewCategory(x.category);
    var date :- ParseStoredDate(x.occurredOn);
    Ok(Entry(EntryId(x.id), kind, ToMoney(x.amountCents), category, x.note, date))
  }

  /** The conditions `list` builds from the filter: each present bound or
      category becomes its text. */
  function ToRowFilter(f: EntryFilter): RowFilter {
    RowFilter(
      if f.from.Some? then Some(Format(f.from.value)) else None,
      if f.to.Some? then Some(Format(f.to.value)) else None,
      if f.category.Some? then Some(AsStr(f.category.value)) else None)
  }

  /** `list`. */
  function List(t: Table, f: EntryFilter): Result<seq<Entry>, DomainError> {
    DecodeAll(Query(t, ToRowFilter(f)), DecodeRow)
  }

  /** What the filter means for an entry: on or after `from`, on or before
      `to`, in exactly the given category; an absent field imposes nothing. */
  predicate EntryMatches(f: EntryFilter, e: Entry) {
    && (f.from.None? || !Before(e.occurredOn, f.from.value))
    && (f.to.None? || !Before(f.to.value, e.occurredOn))
    && (f.category.None? || e.category == f.category.value)
  }

  /** A stored USD entry decodes to exactly what was added. */
  lemma RowRoundTrip(e: NewEntry, id: I64)
    requires e.amount.currency == USD
    ensures DecodeRow(EncodeRow(e, id)) == Ok(WithId(e, EntryId(id)))
  {
    FromMoneyRoundTrip(e.amount.minor);
    CategoryRoundTrip(e.category, AsStr(e.category));
    ParseFormat(e.occurredOn);
    VisibleIffNotBlank(e.category);
    FormatInjective(DecodeRow(EncodeRow(e, id)).value.occurredOn, e.occurredOn);
  }

  /** The text conditions on a decodable row say the same as the filter
      says of its entry: comparing date text is comparing dates. */
  lemma MatchesDecoded(f: EntryFilter, x: Row)
    requires DecodeRow(x).Ok?
    ensures Matches(ToRowFilter(f), x) <==> EntryMatches(f, DecodeRow(x).value)
  {
    var d := DecodeRow(x).value.occurredOn;
    if f.from.Some? {
      FormatOrder(d, f.from.value);
    }
    if f.to.Some? {
      FormatOrder(f.to.value, d);
    }
  }

  /** Every entry `list` returns is a stored row's decoding that meets the
      filter. */
  lemma ListSound(t: Table, f: EntryFilter)
    requires List(t, f).Ok?
    ensures forall e :: e in List(t, f).value ==>
              EntryMatches(f, e) && exists x :: x in t.rows && DecodeRow(x) == Ok(e)
  {
    var q := Query(t, ToRowFilter(f));
    var es := List(t, f).value;
    QueryContents(t, ToRowFilter(f));
    forall e | e in es
      ensures EntryMatches(f, e) && exists x :: x in t.rows && DecodeRow(x) == Ok(e)
    {
      var i :| 0 <= i < |es| && es[i] == e;
      var x := q[i];
      assert DecodeRow(x) == Ok(e);
      assert x in q;
      MatchesDecoded(f, x);
    }
  }

  /** Every stored row that decodes to an entry meeting the filter is
      listed. */
  lemma ListComplete(t: Table, f: EntryFilter, x: Row)
    requires List(t, f).Ok?
    requires x in t.rows && DecodeRow(x).Ok? && EntryMatches(f, DecodeRow(x).value)
    ensures DecodeRow(x).value in List(t, f).value
  {
    var rf := ToRowFilter(f);
    var q := Query(t, rf);
    QueryContents(t, rf);
    MatchesDecoded(f, x);
    assert x in q;
    var i :| 0 <= i < |q| && q[i] == x;
    DecodedAt(q, i);
  }

  /** The `i`th row of a successful decoding gives the `i`th entry. */
  lemma DecodedAt(q: seq<Row>, i: nat)
    requires DecodeAll(q, DecodeRow).Ok? && i < |q|
    ensures DecodeRow(q[i]) == Ok(DecodeAll(q, DecodeRow).value[i])
    ensures DecodeAll(q, DecodeRow).value[i] in DecodeAll(q, DecodeRow).value
  {
  }

  /** `list` returns exactly the stored entries that meet the filter. */
  lemma ListExact(t: Table, f: EntryFilter, e: Entry)
    requires List(t, f).Ok?
    ensures e in List(t, f).value <==>
              EntryMatches(f, e) && exists x :: x in t.rows && DecodeRow(x) == Ok(e)
  {
    ListSound(t, f);
    if EntryMatches(f, e) && exists x :: x in t.rows && DecodeRow(x) == Ok(e) {
      var x :| x in t.rows && DecodeRow(x) == Ok(e);
      ListComplete(t, f, x);
    }
  }

  /** `list` orders entries by date, latest first, and within a date by id,
      largest first. */
  lemma ListOrdered(t: Table, f: EntryFilter)
    requires List(t, f).Ok?
    ensures var es := List(t, f).value;
            forall i, j :: 0 <= i < j < |es| ==>
              && !Before(es[i].occurredOn, es[j].occurredOn)
              && (es[i].occurredOn == es[j].occurredOn ==> es[i].id.value >= es[j].id.value)
  {
    var q := Query(t, ToRowFilter(f));
    var es := List(t, f).value;
    QueryOrdered(t, ToRowFilter(f));
    forall i, j | 0 <= i < j < |es|
      ensures !Before(es[i].occurredOn, es[j].occurredOn)
      ensures es[i].occurredOn == es[j].occurredOn ==> es[i].id.value >= es[j].id.value
    {
      assert DecodeRow(q[i]) == Ok(es[i]) && DecodeRow(q[j]) == Ok(es[j]);
      FormatOrder(es[i].occurredOn, es[j].occurredOn);
    }
  }

  /** `list` fails exactly when some row meeting the filter does not
      decode, and the failure is always `InvalidData`. */
  lemma ListFails(t: Table, f: EntryFilter)
    ensures List(t, f).Err? <==>
              exists x :: x in t.rows && Matches(ToRowFilter(f), x) && DecodeRow(x).Err?
    ensures List(t, f).Err? ==> List(t, f).error.InvalidData?
  {
    var q := Query(t, ToRowFilter(f));
    QueryContents(t, ToRowFilter(f));
    if List(t, f).Err? {
      var i :| 0 <= i < |q| && DecodeRow(q[i]) == Err(List(t, f).error);
      assert q[i] in q;
    } else {
      forall x | x in t.rows && Matches(ToRowFilter(f), x) ensures DecodeRow(x).Ok? {
        assert x in q;
      }
    }
  }

  /** The default filter imposes no condition, so an unfiltered listing
      holds one entry per stored row. */
  lemma DefaultFilterListsAll(t: Table)
    ensures forall x :: Matches(ToRowFilter(DEFAULT_FILTER), x)
    ensures List(t, DEFAULT_FILTER).Ok? ==> |List(t, DEFAULT_FILTER).value| == |t.rows|
  {
    var rf := ToRowFilter(DEFAULT_FILTER);
    var q := Query(t, rf);
    SelectAll(t.rows, rf);
  }

  lemma {:induction false} SelectAll(rows: seq<Row>, f: RowFilter)
    requires f == RowFilter(None, None, None)
    ensures Select(rows, f) == rows
  {
    if |rows| > 0 {
      SelectAll(rows[1..], f);
      assert rows == [rows[0]] + rows[1..];
    }
  }

  /** Adding a USD entry to an empty table and listing without a filter
      gives back exactly that entry. */
  lemma AddThenList(e: NewEntry)
    requires e.amount.currency == USD
    ensures var (t, r) := Add(EMPTY_TABLE, e, None);
            && r.Ok?
            && r.value == WithId(e, EntryId(1))
            && List(t, DEFAULT_FILTER) == Ok([r.value])
  {
    var (t, r) := Add(EMPTY_TABLE, e, None);
    var x := EncodeRow(e, 1);
    assert t.rows == [x];
    RowRoundTrip(e, 1);
    ListSingleRow(t, x);
  }

  /** A table of one decodable row lists its entry alone. */
  lemma ListSingleRow(t: Table, x: Row)
    requires t.rows == [x] && DecodeRow(x).Ok?
    ensures List(t, DEFAULT_FILTER) == Ok([DecodeRow(x).value])
  {
    SelectAll(t.rows, ToRowFilter(DEFAULT_FILTER));
    SortSingleton(x, RowAfter);
    var q := Query(t, ToRowFilter(DEFAULT_FILTER));
    assert q == [x];
    assert DecodeRow(q[0]).Ok?;
    var r := DecodeAll(q, DecodeRow);
    assert |r.value| == 1 && DecodeRow(q[0]) == Ok(r.value[0]);
    assert r.value == [DecodeRow(x).value];
  }

  /** More generally, after a successful `add` of a USD entry, a listing
      that succeeds and whose filter the entry meets contains it. */
  lemma AddedEntryIsListed(t: Table, e: NewEntry, f: EntryFilter)
    requires e.amount.currency == USD
    ensures var (t', r) := Add(t, e, None);
            r.Ok? && EntryMatches(f, r.value) && List(t', f).Ok? ==> r.value in List(t', f).value
  {
    var (t', r) := Add(t, e, None);
    if r.Ok? && EntryMatches(f, r.value) && List(t', f).Ok? {
      var x := EncodeRow(e, r.value.id.value);
      assert t'.rows[|t.rows|] == x;
      RowRoundTrip(e, r.value.id.value);
      ListComplete(t', f, x);
    }
  }
}

=== FILE: entry_table.dfy ===
/** The `entries` table both repository variants store into, as SQLite
    holds it: rows of column values with storage-assigned ids, selected by
    a conjunction of optional conditions on the stored text and ordered by
    `occurred_on DESC, id DESC`; then decoded row by row, the first row that
    does not decode failing the whole listing. */
module EntryTable {
  import opened Wrappers
  import opened Numerals
  import opened Text
  import opened Calendar
  import opened Models
  import opened Sorting

  /** A stored row: the kind tag, the amount in cents, the category text,
      the optional note and the `YYYY-MM-DD` date text. */
  datatype Row = Row(
    id: I64,
    kind: string,
    amountCents: I64,
    category: string,
    note: Option<string>,
    occurredOn: string)

  /** The rows in insertion order and the rowid the next insert receives
      (one more than the largest so far). */
  datatype Table = Table(rows: seq<Row>, nextId: nat)

  const EMPTY_TABLE: Table := Table([], 1)

  /** The engine's report when no rowid above the largest one is left. */
  const FULL_MESSAGE: string := "database or disk is full"

  /** Ids are positive, increase in insertion order and stay below the next
      one to be assigned. */
  predicate WellFormed(t: Table) {
    && 1 <= t.nextId
    && (forall i :: 0 <= i < |t.rows| ==> 1 <= t.rows[i].id < t.nextId)
    && (forall i, j :: 0 <= i < j < |t.rows| ==> t.rows[i].id < t.rows[j].id)
  }

  /** `INSERT INTO entries ...` followed by `last_insert_rowid()`. A write
      failure (`fault`) or an exhausted id space is a `Storage` error and
      leaves the table as it was; otherwise exactly one row is appended,
      under an id larger than every existing one. */
  function InsertRow(t: Table, kind: string, amountCents: I64, category: string,
                     note: Option<string>, occurredOn: string, fault: Option<string>)
    : (r: (Table, Result<I64, DomainError>))
    ensures r.1.Ok? <==> fault.None? && t.nextId <= I64_MAX
    ensures r.1.Err? ==> r.0 == t && r.1.error.Storage?
    ensures r.1.Ok? ==>
              && r.0.rows == t.rows + [Row(r.1.value, kind, amountCents, category, note, occurredOn)]
              && (WellFormed(t) ==> forall x :: x in t.rows ==> x.id < r.1.value)
    ensures WellFormed(t) ==> WellFormed(r.0)
  {
    match fault
    case Some(message) => (t, Err(Storage(message)))
    case None =>
      if t.nextId > I64_MAX then (t, Err(Storage(FULL_MESSAGE)))
      else
        var id: I64 := t.nextId;
        (Table(t.rows + [Row(id, kind, amountCents, category, note, occurredOn)], id + 1), Ok(id))
  }

  /** The `WHERE` clause on the stored text: `occurred_on >= from`,
      `occurred_on <= to` and `category = c`, each present only when set. */
  datatype RowFilter = RowFilter(from: Option<string>, to: Option<string>, category: Option<string>)

  predicate Matches(f: RowFilter, x: Row) {
    && (f.from.None? || !LexLess(x.occurredOn, f.from.value))
    && (f.to.None? || !LexLess(f.to.value, x.occurredOn))
    && (f.category.None? || x.category == f.category.value)
  }

  /** The rows meeting the filter, in table order. */
  function Select(rows: seq<Row>, f: RowFilter): (s: seq<Row>)
    ensures forall x :: x in s <==> x in rows && Matches(f, x)
    ensures |s| <= |rows|
  {
    if |rows| == 0 then []
    else if Matches(f, rows[0]) then [rows[0]] + Select(rows[1..], f)
    else Select(rows[1..], f)
  }

  /** `ORDER BY occurred_on DESC, id DESC`: `a` is listed before `b`. */
  predicate RowAfter(a: Row, b: Row) {
    LexLess(b.occurredOn, a.occurredOn) || (a.occurredOn == b.occurredOn && a.id > b.id)
  }

  lemma RowAfterIsStrictWeakOrder()
    ensures StrictWeakOrder(RowAfter)
  {
    forall a: Row ensures !RowAfter(a, a) {
      LexIrreflexive(a.occurredOn);
    }
    forall a: Row, b: Row, c: Row | RowAfter(a, b) && RowAfter(b, c) ensures RowAfter(a, c) {
      if LexLess(b.occurredOn, a.occurredOn) && LexLess(c.occurredOn, b.occurredOn) {
        LexTransitive(c.occurredOn, b.occurredOn, a.occurredOn);
      }
    }
    forall a: Row, b: Row, c: Row | !RowAfter(a, b) && !RowAfter(b, c) ensures !RowAfter(a, c) {
      LexTrichotomy(a.occurredOn, b.occurredOn);
      LexTrichotomy(b.occurredOn, c.occurredOn);
      LexTrichotomy(a.occurredOn, c.occurredOn);
      if LexLess(a.occurredOn, b.occurredOn) && LexLess(b.occurredOn, c.occurredOn) {
        LexTransitive(a.occurredOn, b.occurredOn, c.occurredOn);
      }
      if LexLess(c.occurredOn, a.occurredOn) {
        LexAsymmetric(c.occurredOn, a.occurredOn);
        if LexLess(a.occurredOn, b.occurredOn) {
          LexTransitive(c.occurredOn, a.occurredOn, b.occurredOn);
          LexAsymmetric(c.occurredOn, b.occurredOn);
        }
      }
    }
  }

  /** The query: the selected rows in listing order. */
  function Query(t: Table, f: RowFilter): seq<Row> {
    Sort(Select(t.rows, f), RowAfter)
  }

  /** The query returns exactly the rows of the table that meet every
      present condition, once each as often as they are stored. */
  lemma QueryContents(t: Table, f: RowFilter)
    ensures forall x :: x in Query(t, f) <==> x in t.rows && Matches(f, x)
    ensures multiset(Query(t, f)) == multiset(Select(t.rows, f))
  {
    var s := Select(t.rows, f);
    assert forall x :: x in Query(t, f) <==> x in multiset(s);
  }

  /** The query lists later dates first and, within a date, larger ids
      first. */
  lemma QueryOrdered(t: Table, f: RowFilter)
    ensures var q := Query(t, f);
            forall i, j :: 0 <= i < j < |q| ==>
              && !LexLess(q[i].occurredOn, q[j].occurredOn)
              && (q[i].occurredOn == q[j].occurredOn ==> q[i].id >= q[j].id)
  {
    RowAfterIsStrictWeakOrder();
    SortSorted(Select(t.rows, f), RowAfter);
    var q := Query(t, f);
    assert forall i, j :: 0 <= i < j < |q| ==> !RowAfter(q[j], q[i]);
  }

  /** The `InvalidData` text for a stored date that does not parse. */
  const DATE_PARSE_MESSAGE: string := "input is not a valid date"

  /** `parse_date` of the older crate, and the same conversion inline in the
      current `list`: `NaiveDate::parse_from_str(.., "%Y-%m-%d")` with its
      error mapped to `InvalidData`, never `Storage`. */
  function ParseStoredDate(s: string): (r: Result<CalDate, DomainError>)
    ensures r.Ok? <==> ParseDate(s).Some?
    ensures r.Ok? ==> Format(r.value) == s
    ensures r.Err? ==> r.error.InvalidData?
  {
    match ParseDate(s)
    case Some(d) =>
      FormatParse(s);
      Ok(d)
    case None => Err(InvalidData(DATE_PARSE_MESSAGE))
  }

  /** The decoding loop: every row converted in order, or the first
      conversion error. */
  function DecodeAll<E>(rows: seq<Row>, decode: Row -> Result<E, DomainError>)
    : (r: Result<seq<E>, DomainError>)
    ensures r.Ok? <==> forall i :: 0 <= i < |rows| ==> decode(rows[i]).Ok?
    ensures r.Ok? ==> |r.value| == |rows|
                      && forall i :: 0 <= i < |rows| ==> decode(rows[i]) == Ok(r.value[i])
    ensures r.Err? ==> exists i :: 0 <= i < |rows| && decode(rows[i]) == Err(r.error)
                                  && forall k :: 0 <= k < i ==> decode(rows[k]).Ok?
  {
    if |rows| == 0 then Ok([])
    else
      match decode(rows[0])
      case Err(e) => Err(e)
      case Ok(x) =>
        match DecodeAll(rows[1..], decode)
        case Err(e) =>
          var i :| 0 <= i < |rows[1..]| && decode(rows[1..][i]) == Err(e)
                   && forall k :: 0 <= k < i ==> decode(rows[1..][k]).Ok?;
          assert decode(rows[i + 1]) == Err(e);
          Err(e)
        case Ok(xs) => Ok([x] + xs)
  }
}

=== FILE: event.dfy ===
/** The terminal-event-to-action mapping. Key events are described by their
    code, their modifier set and their kind, as the terminal library
    reports them; every other event carries nothing the mapping reads. */
module Event {
  import opened Screens

  /** `Action`. `Cancel` is handled by the login screen but is not among
      the source's declared variants; it is kept so that screen can be
      modelled, and no key produces it. */
  datatype Action =
    | None
    | Quit
    | Go(id: ScreenId)
    | FocusNext
    | FocusPrev
    | Activate
    | InputChar(ch: char)
    | Backspace
    | NavUp
    | NavDown
    | NavLeft
    | NavRight
    | Cancel

  /** The key codes the mapping distinguishes; `Other` stands for every
      remaining code (function keys, Home, Esc and so on). */
  datatype KeyCode = Char(c: char) | Tab | BackTab | Up | Down | Left | Right | Backspace | Enter | Other

  datatype Modifier = Shift | Control | Alt | Super | Hyper | Meta

  datatype KeyEventKind = Press | Repeat | Release

  datatype KeyEvent = KeyEvent(code: KeyCode, modifiers: set<Modifier>, kind: KeyEventKind)

  datatype TermEvent = Key(key: KeyEvent) | FocusGained | FocusLost | Mouse | Paste(text: string) | Resize

  predicate IsPress(e: TermEvent) {
    e.Key? && e.key.kind == Press
  }

  /** Control+q and Control+c, whatever else is held. */
  predicate IsQuitChord(k: KeyEvent) {
    k.code.Char? && (k.code.c == 'q' || k.code.c == 'c') && Control in k.modifiers
  }

  /** `handle_event`: only key presses produce actions. */
  function HandleEvent(e: TermEvent): (a: Action)
    ensures !IsPress(e) ==> a == Action.None
    ensures !a.Go? && !a.Cancel?
    ensures a == Action.Quit <==> IsPress(e) && IsQuitChord(e.key)
    ensures a.InputChar? <==> IsPress(e) && e.key.code.Char? && e.key.modifiers == {}
    ensures a.InputChar? ==> a.ch == e.key.code.c
  {
    match e
    case Key(k) =>
      if k.kind != Press then Action.None
      else
        (match k.code
         case Char(c) =>
           if (c == 'q' || c == 'c') && Control in k.modifiers then Action.Quit
           else if k.modifiers == {} then Action.InputChar(c)
           else Action.None
         case Tab => Action.FocusNext
         case BackTab => Action.FocusPrev
         case Up => Action.NavUp
         case Down => Action.NavDown
         case Left => Action.NavLeft
         case Right => Action.NavRight
         case Backspace => Action.Backspace
         case Enter => Action.Activate
         case Other => Action.None)
    case _ => Action.None
  }

  /** The key that produces each action the mapping can produce. */
  function KeyFor(a: Action): (k: KeyEvent)
    requires !a.Go? && !a.Cancel? && !a.None?
  {
    match a
    case Quit => KeyEvent(Char('q'), {Control}, Press)
    case FocusNext => KeyEvent(Tab, {}, Press)
    case FocusPrev => KeyEvent(BackTab, {}, Press)
    case Activate => KeyEvent(Enter, {}, Press)
    case InputChar(ch) => KeyEvent(Char(ch), {}, Press)
    case Backspace => KeyEvent(KeyCode.Backspace, {}, Press)
    case NavUp => KeyEvent(Up, {}, Press)
    case NavDown => KeyEvent(Down, {}, Press)
    case NavLeft => KeyEvent(Left, {}, Press)
    case NavRight => KeyEvent(Right, {}, Press)
  }

  /** Every action other than `None`, `Go` and `Cancel` is produced by a
      key press: `KeyFor` names one such key. */
  lemma EveryActionHasAKey(a: Action)
    requires !a.Go? && !a.Cancel? && !a.None?
    ensures HandleEvent(Key(KeyFor(a))) == a
  {
  }

  /** The fixed keys: Tab and BackTab move focus, arrows navigate, Enter
      activates and Backspace deletes, with any modifiers. */
  lemma FixedKeys(mods: set<Modifier>)
    ensures HandleEvent(Key(KeyEvent(Tab, mods, Press))) == Action.FocusNext
    ensures HandleEvent(Key(KeyEvent(BackTab, mods, Press))) == Action.FocusPrev
    ensures HandleEvent(Key(KeyEvent(Up, mods, Press))) == Action.NavUp
    ensures HandleEvent(Key(KeyEvent(Down, mods, Press))) == Action.NavDown
    ensures HandleEvent(Key(KeyEvent(Left, mods, Press))) == Action.NavLeft
    ensures HandleEvent(Key(KeyEvent(Right, mods, Press))) == Action.NavRight
    ensures HandleEvent(Key(KeyEvent(KeyCode.Backspace, mods, Press))) == Action.Backspace
    ensures HandleEvent(Key(KeyEvent(Enter, mods, Press))) == Action.Activate
  {
  }

  /** A character typed with any modifier other than the quit chords maps
      to nothing. */
  lemma ModifiedCharIgnored(c: char, mods: set<Modifier>)
    requires mods != {}
    requires !(Control in mods && (c == 'q' || c == 'c'))
    ensures HandleEvent(Key(KeyEvent(Char(c), mods, Press))) == Action.None
  {
  }

  /** The terminal library reports an upper-case letter with the Shift
      modifier, so typing one produces no action at all. */
  lemma UpperCaseLetterDropped()
    ensures HandleEvent(Key(KeyEvent(Char('A'), {Shift}, Press))) == Action.None
  {
  }

  /** The same mapping with Shift alone accepted for typed characters. */
  function HandleEventShiftAware(e: TermEvent): (a: Action)
    ensures !IsPress(e) ==> a == Action.None
    ensures !a.Go? && !a.Cancel?
    ensures a == Action.Quit <==> IsPress(e) && IsQuitChord(e.key)
    ensures a.InputChar? <==> IsPress(e) && e.key.code.Char? && e.key.modifiers <= {Shift}
    ensures a.InputChar? ==> a.ch == e.key.code.c
  {
    if IsPress(e) && e.key.code.Char? && e.key.modifiers == {Shift} then
      Action.InputChar(e.key.code.c)
    else
      HandleEvent(e)
  }

  /** With Shift accepted, every character can be typed, and every other
      event maps as before. */
  lemma ShiftAwareTypesEveryChar(c: char, e: TermEvent)
    ensures HandleEventShiftAware(Key(KeyEvent(Char(c), {Shift}, Press))) == Action.InputChar(c)
    ensures HandleEventShiftAware(Key(KeyEvent(Char(c), {}, Press))) == Action.InputChar(c)
    ensures !(IsPress(e) && e.key.code.Char? && e.key.modifiers == {Shift}) ==>
              HandleEventShiftAware(e) == HandleEvent(e)
  {
  }
}

=== FILE: legacy_store.dfy ===
/** The older storage crate's repository: the same `entries` table, but
    entries carry their amount as plain cents and their category as
    unchecked text, so listing only checks the kind tag and the date. */
module LegacyStore {
  import opened Wrappers
  import opened Numerals
  import opened Calendar
  import opened Models
  import opened Mapper
  import opened EntryTable
  import opened Sorting

  /** The older crate's `NewEntry`. */
  datatype LegacyNewEntry = LegacyNewEntry(
    kind: EntryKind,
    amountCents: I64,
    category: string,
    note: Option<string>,
    occurredOn: CalDate)

  /** The older crate's `Entry`, its id a bare integer. */
  datatype LegacyEntry = LegacyEntry(
    id: I64,
    kind: EntryKind,
    amountCents: I64,
    category: string,
    note: Option<string>,
    occurredOn: CalDate)

  /** The older crate's `EntryFilter`: the category is any text. */
  datatype LegacyFilter = LegacyFilter(from: Option<CalDate>, to: Option<CalDate>, category: Option<string>)

  const LEGACY_DEFAULT_FILTER: LegacyFilter := LegacyFilter(None, None, None)

  function LegacyWithId(e: LegacyNewEntry, id: I64): (r: LegacyEntry)
    ensures r.id == id
    ensures LegacyNewEntry(r.kind, r.amountCents, r.category, r.note, r.occurredOn) == e
  {
    LegacyEntry(id, e.kind, e.amountCents, e.category, e.note, e.occurredOn)
  }

  /** The row the older `add` writes. */
  function LegacyEncodeRow(e: LegacyNewEntry, id: I64): Row {
    Row(id, KindToStr(e.kind), e.amountCents, e.category, e.note, Format(e.occurredOn))
  }

  /** `add` of the older crate: no validation, the cents stored as given. */
  function LegacyAdd(t: Table, e: LegacyNewEntry, fault: Option<string>)
    : (r: (Table, Result<LegacyEntry, DomainError>))
    ensures r.1.Ok? <==> fault.None? && t.nextId <= I64_MAX
    ensures r.1.Err? ==> r.0 == t && r.1.error.Storage?
    ensures r.1.Ok? ==> r.1.value == LegacyWithId(e, r.1.value.id)
    ensures r.1.Ok? ==> r.0.rows == t.rows + [LegacyEncodeRow(e, r.1.value.id)]
    ensures r.1.Ok? && WellFormed(t) ==> forall x :: x in t.rows ==> x.id < r.1.value.id
    ensures WellFormed(t) ==> WellFormed(r.0)
  {
    var (t', res) := InsertRow(t, KindToStr(e.kind), e.amountCents, e.category,
                               e.note, Format(e.occurredOn), fault);
    match res
    case Err(err) => (t', Err(err))
    case Ok(id) => (t', Ok(LegacyWithId(e, id)))
  }

  /** The row conversion of the older `list`: the kind tag is checked, then
      the date; amount, category and note are taken as stored. */
  function LegacyDecodeRow(x: Row): (r: Result<LegacyEntry, DomainError>)
    ensures r.Ok? <==> KindFromStr(x.kind).Ok? && ParseDate(x.occurredOn).Some?
    ensures r.Err? ==> r.error.InvalidData?
    ensures KindFromStr(x.kind).Err? ==> r == Err(InvalidData("unknown entry kind: " + x.kind))
    ensures r.Ok? ==>
              && r.value.id == x.id
              && KindToStr(r.value.kind) == x.kind
              && r.value.amountCents == x.amountCents
              && r.value.category == x.category
              && r.value.note == x.note
              && Format(r.value.occurredOn) == x.occurredOn
  {
    var kind :- KindFromStr(x.kind);
    var date :- ParseStoredDate(x.occurredOn);
    Ok(LegacyEntry(x.id, kind, x.amountCents, x.category, x.note, date))
  }

  function LegacyToRowFilter(f: LegacyFilter): RowFilter {
    RowFilter(
      if f.from.Some? then Some(Format(f.from.value)) else None,
      if f.to.Some? then Some(Format(f.to.value)) else None,
      f.category)
  }

  /** `list` of the older crate. */
  function LegacyList(t: Table, f: LegacyFilter): Result<seq<LegacyEntry>, DomainError> {
    DecodeAll(Query(t, LegacyToRowFilter(f)), LegacyDecodeRow)
  }

  predicate LegacyMatches(f: LegacyFilter, e: LegacyEntry) {
    && (f.from.None? || !Before(e.occurredOn, f.from.value))
    && (f.to.None? || !Before(f.to.value, e.occurredOn))
    && (f.category.None? || e.category == f.category.value)
  }

  /** Every stored entry decodes to what was added, cents included. */
  lemma LegacyRowRoundTrip(e: LegacyNewEntry, id: I64)
    ensures LegacyDecodeRow(LegacyEncodeRow(e, id)) == Ok(LegacyWithId(e, id))
  {
    ParseFormat(e.occurredOn);
    FormatInjective(LegacyDecodeRow(LegacyEncodeRow(e, id)).value.occurredOn, e.occurredOn);
  }

  lemma LegacyMatchesDecoded(f: LegacyFilter, x: Row)
    requires LegacyDecodeRow(x).Ok?
    ensures Matches(LegacyToRowFilter(f), x) <==> LegacyMatches(f, LegacyDecodeRow(x).value)
  {
    var d := LegacyDecodeRow(x).value.occurredOn;
    if f.from.Some? {
      FormatOrder(d, f.from.value);
    }
    if f.to.Some? {
      FormatOrder(f.to.value, d);
    }
  }

  lemma LegacyDecodedAt(q: seq<Row>, i: nat)
    requires DecodeAll(q, LegacyDecodeRow).Ok? && i < |q|
    ensures LegacyDecodeRow(q[i]) == Ok(DecodeAll(q, LegacyDecodeRow).value[i])
    ensures DecodeAll(q, LegacyDecodeRow).value[i] in DecodeAll(q, LegacyDecodeRow).value
  {
  }

  /** The older `list` returns exactly the stored entries that meet every
      present condition. */
  lemma LegacyListExact(t: Table, f: LegacyFilter, e: LegacyEntry)
    requires LegacyList(t, f).Ok?
    ensures e in LegacyList(t, f).value <==>
              LegacyMatches(f, e) && exists x :: x in t.rows && LegacyDecodeRow(x) == Ok(e)
  {
    var rf := LegacyToRowFilter(f);
    var q := Query(t, rf);
    var es := LegacyList(t, f).value;
    QueryContents(t, rf);
    if e in es {
      var i :| 0 <= i < |es| && es[i] == e;
      var x := q[i];
      assert LegacyDecodeRow(x) == Ok(e);
      assert x in q;
      LegacyMatchesDecoded(f, x);
    }
    if LegacyMatches(f, e) && exists x :: x in t.rows && LegacyDecodeRow(x) == Ok(e) {
      var x :| x in t.rows && LegacyDecodeRow(x) == Ok(e);
      LegacyMatchesDecoded(f, x);
      assert x in q;
      var i :| 0 <= i < |q| && q[i] == x;
      LegacyDecodedAt(q, i);
    }
  }

  /** Later dates first, then larger ids first. */
  lemma LegacyListOrdered(t: Table, f: LegacyFilter)
    requires LegacyList(t, f).Ok?
    ensures var es := LegacyList(t, f).value;
            forall i, j :: 0 <= i < j < |es| ==>
              && !Before(es[i].occurredOn, es[j].occurredOn)
              && (es[i].occurredOn == es[j].occurredOn ==> es[i].id >= es[j].id)
  {
    var q := Query(t, LegacyToRowFilter(f));
    var es := LegacyList(t, f).value;
    QueryOrdered(t, LegacyToRowFilter(f));
    forall i, j | 0 <= i < j < |es|
      ensures !Before(es[i].occurredOn, es[j].occurredOn)
      ensures es[i].occurredOn == es[j].occurredOn ==> es[i].id >= es[j].id
    {
      assert LegacyDecodeRow(q[i]) == Ok(es[i]) && LegacyDecodeRow(q[j]) == Ok(es[j]);
      FormatOrder(es[i].occurredOn, es[j].occurredOn);
    }
  }

  /** The older `list` fails exactly when a selected row has an unknown
      kind tag or an unparsable date, and always with `InvalidData`. */
  lemma LegacyListFails(t: Table, f: LegacyFilter)
    ensures LegacyList(t, f).Err? <==>
              exists x :: x in t.rows && Matches(LegacyToRowFilter(f), x) && LegacyDecodeRow(x).Err?
    ensures LegacyList(t, f).Err? ==> LegacyList(t, f).error.InvalidData?
  {
    var q := Query(t, LegacyToRowFilter(f));
    QueryContents(t, LegacyToRowFilter(f));
    if LegacyList(t, f).Err? {
      var i :| 0 <= i < |q| && LegacyDecodeRow(q[i]) == Err(LegacyList(t, f).error);
      assert q[i] in q;
    } else {
      forall x | x in t.rows && Matches(LegacyToRowFilter(f), x) ensures LegacyDecodeRow(x).Ok? {
        assert x in q;
      }
    }
  }

  /** Adding to an empty table and listing without a filter gives back
      exactly the added entry, its cents unchanged. */
  lemma LegacyAddThenList(e: LegacyNewEntry)
    ensures var (t, r) := LegacyAdd(EMPTY_TABLE, e, None);
            && r.Ok?
            && r.value == LegacyWithId(e, 1)
            && LegacyList(t, LEGACY_DEFAULT_FILTER) == Ok([r.value])
  {
    var (t, r) := LegacyAdd(EMPTY_TABLE, e, None);
    var x := LegacyEncodeRow(e, 1);
    assert t.rows == [x];
    LegacyRowRoundTrip(e, 1);
    var rf := LegacyToRowFilter(LEGACY_DEFAULT_FILTER);
    assert Select([x], rf) == [x];
    SortSingleton(x, RowAfter);
    var q := Query(t, rf);
    assert q == [x];
    var l := DecodeAll(q, LegacyDecodeRow);
    assert LegacyDecodeRow(q[0]).Ok?;
    assert |l.value| == 1 && LegacyDecodeRow(q[0]) == Ok(l.value[0]);
    assert l.value == [r.value];
  }

  /** Whether the selected row `x`, stored for `e`, meets the conditions
      is what the filter says of `e`'s date and category. */
  lemma StoredRowMatches(f: LegacyFilter, e: LegacyNewEntry, id: I64)
    ensures Matches(LegacyToRowFilter(f), LegacyEncodeRow(e, id)) <==>
              LegacyMatches(f, LegacyWithId(e, id))
  {
    LegacyRowRoundTrip(e, id);
    LegacyMatchesDecoded(f, LegacyEncodeRow(e, id));
  }

  /** The three entries of the date-range example. */
  function RangeEntry(day: int, cents: I64): LegacyNewEntry
    requires 1 <= day <= 31
  {
    LegacyNewEntry(Expense, cents, "food", None, Date(2024, 1, day))
  }

  /** A filter that selects a single decodable row lists its entry alone. */
  lemma LegacyListOneRow(t: Table, f: LegacyFilter, x: Row)
    requires Select(t.rows, LegacyToRowFilter(f)) == [x]
    requires LegacyDecodeRow(x).Ok?
    ensures LegacyList(t, f) == Ok([LegacyDecodeRow(x).value])
  {
    SortSingleton(x, RowAfter);
    var q := Query(t, LegacyToRowFilter(f));
    assert q == [x];
    var l := DecodeAll(q, LegacyDecodeRow);
    assert LegacyDecodeRow(q[0]).Ok?;
    assert |l.value| == 1 && LegacyDecodeRow(q[0]) == Ok(l.value[0]);
    assert l.value == [LegacyDecodeRow(x).value];
  }

  lemma SelectMiddle(x1: Row, x2: Row, x3: Row, rf: RowFilter)
    requires !Matches(rf, x1) && Matches(rf, x2) && !Matches(rf, x3)
    ensures Select([x1, x2, x3], rf) == [x2]
  {
    assert [x1, x2, x3][1..] == [x2, x3] && [x2, x3][1..] == [x3] && [x3][1..] == [];
    assert Select([x3], rf) == [];
  }

  lemma SelectFirst(x1: Row, x2: Row, rf: RowFilter)
    requires Matches(rf, x1) && !Matches(rf, x2)
    ensures Select([x1, x2], rf) == [x1]
  {
    assert [x1, x2][1..] == [x2] && [x2][1..] == [];
  }

  /** Entries on 1, 10 and 20 January 2024 listed between 5 and 15 January,
      both bounds inclusive: only the 10 January entry is returned. */
  lemma DateRangeExample()
    ensures var (t1, r1) := LegacyAdd(EMPTY_TABLE, RangeEntry(1, 100), None);
            var (t2, r2) := LegacyAdd(t1, RangeEntry(10, 200), None);
            var (t3, r3) := LegacyAdd(t2, RangeEntry(20, 300), None);
            var es := LegacyList(t3, LegacyFilter(Some(Date(2024, 1, 5)), Some(Date(2024, 1, 15)), None));
            es.Ok? && |es.value| == 1 && es.value[0].amountCents == 200
  {
    var f := LegacyFilter(Some(Date(2024, 1, 5)), Some(Date(2024, 1, 15)), None);
    var (t1, r1) := LegacyAdd(EMPTY_TABLE, RangeEntry(1, 100), None);
    var (t2, r2) := LegacyAdd(t1, RangeEntry(10, 200), None);
    var (t3, r3) := LegacyAdd(t2, RangeEntry(20, 300), None);
    var x1, x2, x3 := LegacyEncodeRow(RangeEntry(1, 100), 1), LegacyEncodeRow(RangeEntry(10, 200), 2),
                      LegacyEncodeRow(RangeEntry(20, 300), 3);
    assert t3.rows == [x1, x2, x3];
    StoredRowMatches(f, RangeEntry(1, 100), 1);
    StoredRowMatches(f, RangeEntry(10, 200), 2);
    StoredRowMatches(f, RangeEntry(20, 300), 3);
    SelectMiddle(x1, x2, x3, LegacyToRowFilter(f));
    LegacyRowRoundTrip(RangeEntry(10, 200), 2);
    LegacyListOneRow(t3, f, x2);
  }

  /** A "food" entry and a "salary" entry listed with the category "food":
      only the food entry is returned. */
  lemma CategoryFilterExample()
    ensures var (t1, r1) := LegacyAdd(EMPTY_TABLE, LegacyNewEntry(Expense, 500, "food", None, Date(2024, 1, 10)), None);
            var (t2, r2) := LegacyAdd(t1, LegacyNewEntry(Income, 2500, "salary", None, Date(2024, 1, 15)), None);
            var es := LegacyList(t2, LegacyFilter(None, None, Some("food")));
            es.Ok? && |es.value| == 1 && es.value[0].category == "food"
  {
    var e1 := LegacyNewEntry(Expense, 500, "food", None, Date(2024, 1, 10));
    var e2 := LegacyNewEntry(Income, 2500, "salary", None, Date(2024, 1, 15));
    var f := LegacyFilter(None, None, Some("food"));
    var (t1, r1) := LegacyAdd(EMPTY_TABLE, e1, None);
    var (t2, r2) := LegacyAdd(t1, e2, None);
    var x1, x2 := LegacyEncodeRow(e1, 1), LegacyEncodeRow(e2, 2);
    assert t2.rows == [x1, x2];
    SelectFirst(x1, x2, LegacyToRowFilter(f));
    LegacyRowRoundTrip(e1, 1);
    LegacyListOneRow(t2, f, x1);
  }
}

=== FILE: login.dfy ===
/** The login screen: a user picker (a drop-down over a fixed list of
    names), a password field and two buttons, with keyboard focus cycling
    through the four. The picker's list is a placeholder and the password
    is never checked: both buttons' actions only switch screens. */
module Login {
  import opened Screens
  import opened Event

  datatype LoginFocus = User | Password | LoginButton | CreateUserButton

  datatype LoginScreen = LoginScreen(
    focus: LoginFocus,
    userOptions: seq<string>,
    userSelected: nat,
    dropdownOpen: bool,
    passwordInput: string)

  const SELECT_USER_PLACEHOLDER: string := "Select user"
  const MAX_DROPDOWN_ITEMS: nat := 4

  /** A fresh screen: the picker focused and closed, the first name
      selected, the password empty. */
  function NewLogin(): (s: LoginScreen)
    ensures s.focus == User && !s.dropdownOpen && s.passwordInput == ""
    ensures s.userSelected == 0 && s.userSelected < |s.userOptions|
    ensures s.userOptions == ["alice", "bob", "charlie"]
  {
    LoginScreen(User, ["alice", "bob", "charlie"], 0, false, "")
  }

  /** The tab order: user, password, login button, create-user button. */
  function NextFocus(f: LoginFocus): LoginFocus {
    match f
    case User => Password
    case Password => LoginButton
    case LoginButton => CreateUserButton
    case CreateUserButton => User
  }

  function PrevFocus(f: LoginFocus): LoginFocus {
    match f
    case User => CreateUserButton
    case Password => User
    case LoginButton => Password
    case CreateUserButton => LoginButton
  }

  /** Backward is the inverse of forward, and four steps visit every
      element once and come back. */
  lemma FocusCycle(f: LoginFocus)
    ensures PrevFocus(NextFocus(f)) == f && NextFocus(PrevFocus(f)) == f
    ensures NextFocus(NextFocus(NextFocus(NextFocus(f)))) == f
    ensures {f, NextFocus(f), NextFocus(NextFocus(f)), NextFocus(NextFocus(NextFocus(f)))}
            == {User, Password, LoginButton, CreateUserButton}
  {
  }

  /** `focus_next`: focus is locked while the drop-down is open. */
  function FocusNext(s: LoginScreen): (r: LoginScreen)
    ensures s.dropdownOpen ==> r == s
    ensures !s.dropdownOpen ==> r == s.(focus := NextFocus(s.focus))
  {
    if s.dropdownOpen then s else s.(focus := NextFocus(s.focus))
  }

  /** `focus_prev`: the same lock, the opposite direction. */
  function FocusPrev(s: LoginScreen): (r: LoginScreen)
    ensures s.dropdownOpen ==> r == s
    ensures !s.dropdownOpen ==> r == s.(focus := PrevFocus(s.focus))
  {
    if s.dropdownOpen then s else s.(focus := PrevFocus(s.focus))
  }

  /** `activate`: Enter on the picker toggles the drop-down; Enter on the
      password field or the login button goes to the dashboard (there is
      no password check); Enter on the create-user button goes there. */
  function Activate(s: LoginScreen): (r: (LoginScreen, ScreenResult))
    ensures r.1 == ScreenResult.None <==> s.focus == User
    ensures r.1 == ScreenResult.Go(CreateUser) <==> s.focus == CreateUserButton
    ensures r.1 == ScreenResult.Go(Dashboard) <==> s.focus in {Password, LoginButton}
    ensures r.0 == s.(dropdownOpen := if s.focus == User then !s.dropdownOpen else s.dropdownOpen)
  {
    match s.focus
    case User => (s.(dropdownOpen := !s.dropdownOpen), ScreenResult.None)
    case CreateUserButton => (s, ScreenResult.Go(CreateUser))
    case LoginButton => (s, ScreenResult.Go(Dashboard))
    case Password => (s, ScreenResult.Go(Dashboard))
  }

  /** `selected_user_label`: the selected name, or a placeholder when the
      selection is out of range. */
  function SelectedUserLabel(s: LoginScreen): (name: string)
    ensures name in s.userOptions || name == SELECT_USER_PLACEHOLDER
    ensures s.userSelected < |s.userOptions| ==> name == s.userOptions[s.userSelected]
  {
    if s.userSelected < |s.userOptions| then s.userOptions[s.userSelected]
    else SELECT_USER_PLACEHOLDER
  }

  /** One line of the open drop-down: its text and whether it is drawn
      highlighted. */
  datatype DropdownLine = DropdownLine(text: string, highlighted: bool)

  function Min(a: nat, b: nat): nat {
    if a <= b then a else b
  }

  /** `dropdown_lines`: the first four names, each indented by two spaces,
      the selected one highlighted. */
  function DropdownLines(s: LoginScreen): (lines: seq<DropdownLine>)
    ensures |lines| == Min(|s.userOptions|, MAX_DROPDOWN_ITEMS)
    ensures forall i :: 0 <= i < |lines| ==>
              lines[i].text == "  " + s.userOptions[i] && (lines[i].highlighted <==> i == s.userSelected)
  {
    seq(Min(|s.userOptions|, MAX_DROPDOWN_ITEMS),
        i requires 0 <= i < Min(|s.userOptions|, MAX_DROPDOWN_ITEMS) =>
          DropdownLine("  " + s.userOptions[i], i == s.userSelected))
  }

  /** At most one line is highlighted, and one is exactly when the
      selection is among the first four names; a selection further down
      is not shown. */
  lemma DropdownHighlight(s: LoginScreen)
    ensures forall i, j :: 0 <= i < j < |DropdownLines(s)| ==>
              !(DropdownLines(s)[i].highlighted && DropdownLines(s)[j].highlighted)
    ensures (exists i :: 0 <= i < |DropdownLines(s)| && DropdownLines(s)[i].highlighted) <==>
              s.userSelected < Min(|s.userOptions|, MAX_DROPDOWN_ITEMS)
  {
    var lines := DropdownLines(s);
    if s.userSelected < |lines| {
      assert lines[s.userSelected].highlighted;
    }
  }

  /** `handle_action` for the login screen. */
  function HandleAction(s: LoginScreen, a: Action): (r: (LoginScreen, ScreenResult))
    ensures r.1 == ScreenResult.Quit <==> a == Action.Quit
    ensures r.1.Go? ==> a == Action.Activate && s.focus != User
    ensures r.0.userOptions == s.userOptions
    ensures r.0.focus != s.focus ==> !s.dropdownOpen && (a == Action.FocusNext || a == Action.FocusPrev)
    ensures r.0.userSelected != s.userSelected ==> s.dropdownOpen && (a == Action.NavUp || a == Action.NavDown)
    ensures r.0.passwordInput != s.passwordInput ==>
              s.focus == Password && (a.InputChar? || a == Action.Backspace)
    ensures r.0.dropdownOpen != s.dropdownOpen ==>
              (a == Action.Activate && s.focus == User) || (a == Action.Cancel && s.dropdownOpen)
    ensures s.userSelected < |s.userOptions| ==> r.0.userSelected < |r.0.userOptions|
    ensures a == Action.NavDown && s.dropdownOpen && s.userSelected + 1 < |s.userOptions| ==>
              r.0 == s.(userSelected := s.userSelected + 1)
    ensures a == Action.NavUp && s.dropdownOpen && s.userSelected > 0 ==>
              r.0 == s.(userSelected := s.userSelected - 1)
    ensures a.InputChar? && s.focus == Password ==> r.0 == s.(passwordInput := s.passwordInput + [a.ch])
    ensures a == Action.Backspace && s.focus == Password && |s.passwordInput| > 0 ==>
              r.0 == s.(passwordInput := s.passwordInput[..|s.passwordInput| - 1])
    ensures a == Action.Backspace && |s.passwordInput| == 0 ==> r.0 == s
  {
    match a
    case Quit => (s, ScreenResult.Quit)
    case Cancel => (s.(dropdownOpen := false), ScreenResult.None)
    case FocusNext => (FocusNext(s), ScreenResult.None)
    case FocusPrev => (FocusPrev(s), ScreenResult.None)
    case NavUp =>
      if s.dropdownOpen && s.userSelected > 0 then (s.(userSelected := s.userSelected - 1), ScreenResult.None)
      else (s, ScreenResult.None)
    case NavDown =>
      if s.dropdownOpen && s.userSelected + 1 < |s.userOptions| then
        (s.(userSelected := s.userSelected + 1), ScreenResult.None)
      else (s, ScreenResult.None)
    case Activate => Activate(s)
    case InputChar(ch) =>
      if s.focus == Password then (s.(passwordInput := s.passwordInput + [ch]), ScreenResult.None)
      else (s, ScreenResult.None)
    case Backspace =>
      if s.focus == Password && |s.passwordInput| > 0 then
        (s.(passwordInput := s.passwordInput[..|s.passwordInput| - 1]), ScreenResult.None)
      else (s, ScreenResult.None)
    case _ => (s, ScreenResult.None)
  }

  /** With the drop-down closed, Tab then BackTab restores the screen. */
  lemma TabBackTab(s: LoginScreen)
    requires !s.dropdownOpen
    ensures HandleAction(HandleAction(s, Action.FocusNext).0, Action.FocusPrev).0 == s
  {
    FocusCycle(s.focus);
  }

  /** Typing a character into the password field and deleting it restores
      the field. */
  lemma TypeThenDelete(s: LoginScreen, ch: char)
    requires s.focus == Password
    ensures HandleAction(HandleAction(s, Action.InputChar(ch)).0, Action.Backspace).0 == s
  {
    var t := HandleAction(s, Action.InputChar(ch)).0;
    assert t.passwordInput[..|t.passwordInput| - 1] == s.passwordInput;
  }

  /** Within the open drop-down, moving down and back up returns to the
      same name whenever the move down was possible; moves stop at both
      ends rather than wrapping. */
  lemma NavigateDropdown(s: LoginScreen)
    requires s.dropdownOpen
    ensures s.userSelected + 1 < |s.userOptions| ==>
              HandleAction(HandleAction(s, Action.NavDown).0, Action.NavUp).0 == s
    ensures s.userSelected + 1 >= |s.userOptions| ==> HandleAction(s, Action.NavDown).0 == s
    ensures s.userSelected == 0 ==> HandleAction(s, Action.NavUp).0 == s
  {
  }

  /** Opening the drop-down and closing it again (a second Enter, or
      Cancel) leaves the screen as it was. */
  lemma ToggleDropdown(s: LoginScreen)
    requires s.focus == User && !s.dropdownOpen
    ensures HandleAction(s, Action.Activate) == (s.(dropdownOpen := true), ScreenResult.None)
    ensures HandleAction(HandleAction(s, Action.Activate).0, Action.Activate).0 == s
    ensures HandleAction(HandleAction(s, Action.Activate).0, Action.Cancel).0 == s
  {
  }

  /** From a fresh screen, one Tab and Enter goes to the dashboard, and
      three Tabs and Enter go to the create-user screen. */
  lemma LoginPaths()
    ensures var s1 := HandleAction(NewLogin(), Action.FocusNext).0;
            HandleAction(s1, Action.Activate).1 == ScreenResult.Go(Dashboard)
    ensures var s3 := HandleAction(HandleAction(HandleAction(NewLogin(), Action.FocusNext).0,
                                                Action.FocusNext).0, Action.FocusNext).0;
            HandleAction(s3, Action.Activate).1 == ScreenResult.Go(CreateUser)
  {
  }
}

=== FILE: mapper.dfy ===
/** Conversions between the domain's typed values and the column values the
    `entries` table stores: money to and from integer cents (through the
    decimal text of the amount) and the entry kind to and from its tag. */
module Mapper {
  import opened Wrappers
  import opened Numerals
  import opened Models

  /** `to_money`: stored cents become a USD amount. */
  function ToMoney(cents: I64): (m: Money)
    ensures m.minor == cents && m.currency == USD
  {
    Money(cents, USD)
  }

  /** `money.amount().to_string()`: the decimal text of the amount, with
      exactly `exponent` fraction digits after a '.', or no '.' at all for a
      currency without minor units (rust_decimal's rendering of
      `Decimal::new(minor, exponent)`). */
  function AmountText(m: Money): (s: string)
    ensures |s| >= 1
  {
    var magnitude: nat := if m.minor < 0 then 0 - m.minor else m.minor;
    var sign := if m.minor < 0 then "-" else "";
    var e := m.currency.exponent;
    DivNonneg(magnitude, Pow10(e));
    var whole := ShowNat(magnitude / Pow10(e));
    if e == 0 then sign + whole
    else sign + (whole + ("." + Pad(magnitude % Pow10(e), e)))
  }

  /** `str::find`: the index of the first occurrence of a character. */
  function Find(s: string, c: char): (r: Option<nat>)
    ensures r.None? ==> c !in s
    ensures r.Some? ==> r.value < |s| && s[r.value] == c && c !in s[..r.value]
  {
    if |s| == 0 then None
    else if s[0] == c then Some(0)
    else
      match Find(s[1..], c)
      case None => None
      case Some(i) =>
        assert s[..i + 1] == [s[0]] + s[1..][..i];
        Some(i + 1)
  }

  /** The loop `while cents.len() < 2 { cents.push('0') }`. */
  function PadCents(cents: string): (r: string)
    ensures |r| == if |cents| < 2 then 2 else |cents|
    ensures r == cents + r[|cents|..]
    ensures forall i :: |cents| <= i < |r| ==> r[i] == '0'
    decreases 2 - |cents|
  {
    if |cents| < 2 then PadCents(cents + "0") else cents
  }

  /** The fraction after the '.', padded with '0' to two digits, then
      truncated to two: always its first two characters followed by zeros. */
  function TwoFractionDigits(frac: string): (r: string)
    ensures |r| == 2
    ensures r == (frac + "00")[..2]
  {
    var cents := PadCents(frac);
    if |cents| > 2 then cents[..2] else cents
  }

  /** The text-to-cents arithmetic of `from_money`: with a '.', the integer
      part followed by exactly two fraction digits (padded with '0', excess
      digits dropped) is parsed; without one, the parsed integer is scaled
      by 100 (wrapping like a release-build `i64` multiplication). Text
      that does not parse gives 0. */
  function CentsFromText(s: string): (r: I64)
    ensures match Find(s, '.')
            case Some(dot) =>
              var total := s[..dot] + (s[dot + 1..] + "00")[..2];
              r == (if ParseI64(total).Some? then ParseI64(total).value else 0)
            case None =>
              r == (if ParseI64(s).Some? then Wrap64(ParseI64(s).value * 100) else 0)
  {
    match Find(s, '.')
    case Some(dot) =>
      var whole := s[..dot];
      var cents := TwoFractionDigits(s[dot + 1..]);
      (match ParseI64(whole + cents)
       case Some(v) => v
       case None => 0)
    case None =>
      (match ParseI64(s)
       case Some(v) => Wrap64(v * 100)
       case None => 0)
  }

  /** `from_money`. */
  function FromMoney(m: Money): I64 {
    CentsFromText(AmountText(m))
  }

  /** Storing a USD amount as cents and reading it back gives the same
      amount: `from_money(to_money(c)) == c` for every `i64`. */
  lemma FromMoneyRoundTrip(cents: I64)
    ensures FromMoney(ToMoney(cents)) == cents
    ensures ToMoney(FromMoney(Money(cents, USD))) == Money(cents, USD)
  {
    UsdAmountText(cents);
    UsdTextCents(cents);
  }

  /** The text `UsdAmountText` describes reads back as the cents. */
  lemma UsdTextCents(cents: I64)
    ensures var magnitude: nat := if cents < 0 then 0 - cents else cents;
            CentsFromText(((if cents < 0 then "-" else "") + ShowNat(magnitude / 100))
                          + ("." + Pad(magnitude % 100, 2))) == cents
  {
    var magnitude: nat := if cents < 0 then 0 - cents else cents;
    var sign := if cents < 0 then "-" else "";
    DivNonneg(magnitude, 100);
    var whole := ShowNat(magnitude / 100);
    var frac := Pad(magnitude % 100, 2);
    NoDotInDigits(whole);
    SignedCents(cents);
    CentsFromDotted(sign + whole, frac);
  }

  lemma NoDotInDigits(s: string)
    requires AllDigits(s)
    ensures '.' !in s
  {
    forall i | 0 <= i < |s| ensures s[i] != '.' {
      assert IsDigit(s[i]);
    }
  }

  /** Text with a single '.' followed by exactly two digits is read as the
      digits before and after the '.' run together. */
  lemma CentsFromDotted(p: string, f: string)
    requires '.' !in p && |f| == 2
    ensures CentsFromText(p + ("." + f)) ==
              if ParseI64(p + f).Some? then ParseI64(p + f).value else 0
  {
    var s := p + ("." + f);
    assert s[..|p|] == p;
    assert s[|p| + 1..] == f;
    assert (f + "00")[..2] == f;
    assert s[..|p|] + (s[|p| + 1..] + "00")[..2] == p + f;
    assert forall i :: 0 <= i < |p| ==> p[i] != '.';
    FindAfter(p, "." + f, '.');
  }

  /** The text of a USD amount: sign, whole units, '.', two cent digits. */
  lemma UsdAmountText(cents: I64)
    ensures var magnitude: nat := if cents < 0 then 0 - cents else cents;
            AmountText(ToMoney(cents)) ==
              ((if cents < 0 then "-" else "") + ShowNat(magnitude / 100)) + ("." + Pad(magnitude % 100, 2))
  {
    assert Pow10(2) == 100;
  }

  /** The signed digit string of whole units and cents parses to the
      amount in cents. */
  lemma SignedCents(cents: I64)
    ensures var magnitude: nat := if cents < 0 then 0 - cents else cents;
            var sign := if cents < 0 then "-" else "";
            ParseI64((sign + ShowNat(magnitude / 100)) + Pad(magnitude % 100, 2)) == Some(cents)
  {
    var magnitude: nat := if cents < 0 then 0 - cents else cents;
    WholeAndCents(magnitude);
    var whole, frac := ShowNat(magnitude / 100), Pad(magnitude % 100, 2);
    var digits := whole + frac;
    if cents < 0 {
      assert ("-" + whole) + frac == "-" + digits;
      assert ("-" + digits)[1..] == digits;
    } else {
      assert ("" + whole) + frac == digits;
    }
  }

  /** The first occurrence of `c` is found right after a prefix that does
      not contain it. */
  lemma FindAfter(prefix: string, rest: string, c: char)
    requires |rest| > 0 && rest[0] == c
    requires forall i :: 0 <= i < |prefix| ==> prefix[i] != c
    ensures Find(prefix + rest, c) == Some(|prefix|)
  {
    var s := prefix + rest;
    assert s[|prefix|] == c;
  }

  /** The digits of the whole units followed by the two cent digits denote
      the whole magnitude in cents. */
  lemma WholeAndCents(magnitude: nat)
    ensures AllDigits(ShowNat(magnitude / 100) + Pad(magnitude % 100, 2))
    ensures Value(ShowNat(magnitude / 100) + Pad(magnitude % 100, 2)) == magnitude
  {
    DivNonneg(magnitude, 100);
    var q: nat, r: nat := magnitude / 100, magnitude % 100;
    assert Pow10(2) == 100;
    ValueConcat(ShowNat(q), Pad(r, 2));
    ValueShowNat(q);
    ValuePadSmall(r, 2);
    assert q * 100 + r == magnitude;
  }

  /** A currency without minor units renders no '.', so its amount comes
      back multiplied by 100 and relabelled USD: the round trip holds for
      USD only. */
  lemma NoMinorUnitsScaledBy100(n: I64, code: string)
    requires 0 <= n <= I64_MAX / 100
    ensures FromMoney(Money(n, Currency(code, 0))) == n * 100
  {
    var s := ShowNat(n);
    ParseShowNat(n);
    ScaledFits(n);
    UndottedCents(s);
    NoMinorUnitsText(n, code);
  }

  /** Text without a '.' is read as a whole number of units. */
  lemma UndottedCents(s: string)
    requires '.' !in s
    ensures CentsFromText(s) == if ParseI64(s).Some? then Wrap64(ParseI64(s).value * 100) else 0
  {
    assert Find(s, '.').None?;
  }

  lemma NoMinorUnitsText(n: nat, code: string)
    requires n <= I64_MAX
    ensures AmountText(Money(n, Currency(code, 0))) == ShowNat(n)
  {
    assert Pow10(0) == 1;
  }

  /** The decimal text of a number in range parses back to it and holds no
      '.'. */
  lemma ParseShowNat(n: nat)
    requires n <= I64_MAX
    ensures ParseI64(ShowNat(n)) == Some(n)
    ensures '.' !in ShowNat(n)
  {
    var s := ShowNat(n);
    NoDotInDigits(s);
    assert IsDigit(s[0]);
    ValueShowNat(n);
  }

  lemma ScaledFits(n: int)
    requires 0 <= n <= I64_MAX / 100
    ensures Wrap64(n * 100) == n * 100
  {
    assert n * 100 <= (I64_MAX / 100) * 100;
  }

  /** Fraction digits past the second are dropped, not rounded. */
  lemma ExtraFractionDigitsTruncated()
    ensures CentsFromText("12.349") == 1234
  {
    FindAfter("12", ".349", '.');
    assert "12.349"[..2] + ("12.349"[3..] + "00")[..2] == ShowNat(1234);
    ValueShowNat(1234);
  }

  /** Truncation goes toward zero for a negative amount as well. */
  lemma NegativeFractionTruncated()
    ensures CentsFromText("-0.129") == -12
  {
    FindAfter("-0", ".129", '.');
    assert "-0.129"[..2] + ("-0.129"[3..] + "00")[..2] == "-012";
    ParseMinusTwelve();
  }

  lemma ParseMinusTwelve()
    ensures ParseI64("-012") == Some(-12)
  {
    assert "-012"[1..] == "0" + ShowNat(12);
    ValueShowNat(12);
    ValueConcat("0", ShowNat(12));
  }

  /** A short fraction is padded with '0' to two digits. */
  lemma ShortFractionPadded()
    ensures CentsFromText("12.3") == 1230
    ensures CentsFromText("12.") == 1200
  {
    FindAfter("12", ".3", '.');
    assert "12.3"[..2] + ("12.3"[3..] + "00")[..2] == ShowNat(1230);
    ValueShowNat(1230);
    FindAfter("12", ".", '.');
    assert "12."[..2] + ("12."[3..] + "00")[..2] == ShowNat(1200);
    ValueShowNat(1200);
  }

  /** Text without a '.' is a whole number of units. */
  lemma WholeUnitsScaled()
    ensures CentsFromText("12") == 1200
  {
    assert Find("12", '.') == None;
    assert "12" == ShowNat(12);
    ValueShowNat(12);
  }

  /** Text that is not a number yields 0 rather than an error. */
  lemma UnparsableTextIsZero()
    ensures CentsFromText("abc") == 0
    ensures CentsFromText("1.2.3") == 0
    ensures CentsFromText("") == 0
  {
    assert Find("abc", '.') == None;
    assert !IsDigit("abc"[0]);
    FindAfter("1", ".2.3", '.');
    assert "1.2.3"[..1] + ("1.2.3"[2..] + "00")[..2] == "12.";
    assert !IsDigit("12."[2]);
  }

  /** `kind_to_str`. */
  function KindToStr(k: EntryKind): (s: string)
    ensures KindFromStr(s) == Ok(k)
  {
    match k
    case Expense => "expense"
    case Income => "income"
  }

  /** `kind_from_str`: the two tags and nothing else. */
  function KindFromStr(s: string): (r: Result<EntryKind, DomainError>)
    ensures r.Ok? <==> s == "expense" || s == "income"
    ensures r.Err? ==> r.error == InvalidData("unknown entry kind: " + s)
  {
    if s == "expense" then Ok(Expense)
    else if s == "income" then Ok(Income)
    else Err(InvalidData("unknown entry kind: " + s))
  }

  /** The tag codec is a bijection between the two kinds and the two tags. */
  lemma KindCodec(k: EntryKind, s: string)
    ensures KindToStr(Expense) != KindToStr(Income)
    ensures KindFromStr(s).Ok? ==> KindToStr(KindFromStr(s).value) == s
  {
  }
}

=== FILE: migrations.dfy ===
/** The migration engine shared by both repository variants: an ordered list
    of (version, script) pairs is brought up to date against the
    `schema_migrations` table, each pending script running in its own
    transaction together with the insertion of its version. */
module Migrations {
  import opened Wrappers
  import opened Models

  /** A schema change: the version recorded once it is applied and the SQL
      script that performs it (identified here by its file). */
  datatype Migration = Migration(version: string, script: string)

  /** The migration list of the current repository. */
  const MIGRATIONS: seq<Migration> := [
    Migration("001_init.sql", "migrations/001_init.sql"),
    Migration("002_users.sql", "migrations/002_users.sql")
  ]

  /** The migration list of the older repository crate. */
  const LEGACY_MIGRATIONS: seq<Migration> := [
    Migration("001_init.sql", "migrations/001_init.sql")
  ]

  /** What the database holds of its schema history: the `version` column
      of `schema_migrations` in insertion order, and the scripts whose
      effects are committed, in the order they ran. */
  datatype SchemaState = SchemaState(recorded: seq<string>, executed: seq<string>)

  /** The outcome of running a script (`execute_batch` and `commit`)
      against the scripts committed so far: `None` when its transaction
      commits, otherwise the engine's error message. */
  type ScriptRunner = (seq<string>, string) -> Option<string>

  const DUPLICATE_VERSION_MESSAGE: string := "UNIQUE constraint failed: schema_migrations.version"

  predicate DistinctVersions(ms: seq<Migration>) {
    forall i, j :: 0 <= i < j < |ms| ==> ms[i].version != ms[j].version
  }

  function Versions(ms: seq<Migration>): (vs: seq<string>)
    ensures |vs| == |ms|
    ensures forall i :: 0 <= i < |ms| ==> vs[i] == ms[i].version
  {
    seq(|ms|, i requires 0 <= i < |ms| => ms[i].version)
  }

  function Scripts(ms: seq<Migration>): (ss: seq<string>)
    ensures |ss| == |ms|
    ensures forall i :: 0 <= i < |ms| ==> ss[i] == ms[i].script
  {
    seq(|ms|, i requires 0 <= i < |ms| => ms[i].script)
  }

  /** The migrations whose version is not in `applied`, in list order. */
  function Pending(ms: seq<Migration>, applied: set<string>): (p: seq<Migration>)
    ensures forall m :: m in p <==> m in ms && m.version !in applied
  {
    if |ms| == 0 then []
    else if ms[0].version in applied then Pending(ms[1..], applied)
    else [ms[0]] + Pending(ms[1..], applied)
  }

  /** The loop over the migration list, skipping the versions found in the
      table before the loop started (`applied`) and stopping at the first
      transaction that does not commit. A failed transaction is rolled
      back: neither the script's effects nor its version persist. */
  function ApplyFrom(db: SchemaState, applied: set<string>, ms: seq<Migration>, run: ScriptRunner)
    : (r: (SchemaState, Result<(), DomainError>))
    decreases |ms|
    ensures r.1.Err? ==> r.1.error.Storage?
    ensures |db.recorded| <= |r.0.recorded| && r.0.recorded[..|db.recorded|] == db.recorded
  {
    if |ms| == 0 then (db, Ok(()))
    else if ms[0].version in applied then ApplyFrom(db, applied, ms[1..], run)
    else match run(db.executed, ms[0].script)
      case Some(message) => (db, Err(Storage(message)))
      case None =>
        if ms[0].version in db.recorded then (db, Err(Storage(DUPLICATE_VERSION_MESSAGE)))
        else
          var db' := SchemaState(db.recorded + [ms[0].version], db.executed + [ms[0].script]);
          ApplyFrom(db', applied, ms[1..], run)
  }

  /** The versions found in `schema_migrations` before the loop starts. */
  function AppliedSet(db: SchemaState): (s: set<string>)
    ensures forall v :: v in s <==> v in db.recorded
  {
    set v: string | v in db.recorded
  }

  /** `apply_migrations`. */
  function ApplyMigrations(db: SchemaState, ms: seq<Migration>, run: ScriptRunner)
    : (SchemaState, Result<(), DomainError>)
  {
    ApplyFrom(db, AppliedSet(db), ms, run)
  }

  /** The shape of every outcome of the loop from `db`: the first `n`
      pending migrations are committed in order, and the run fails exactly
      when some pending migration was left out, at the first of those,
      because its script does not commit. */
  ghost predicate Outcome(db: SchemaState, p: seq<Migration>, db': SchemaState,
                          r: Result<(), DomainError>, run: ScriptRunner)
  {
    var n := |db'.recorded| - |db.recorded|;
    && 0 <= n <= |p|
    && db'.recorded == db.recorded + Versions(p[..n])
    && db'.executed == db.executed + Scripts(p[..n])
    && (r.Ok? <==> n == |p|)
    && (r.Err? ==> r.error.Storage? && run(db'.executed, p[n].script).Some?)
  }

  /** Committing the head migration and then reaching some outcome of the
      rest is an outcome of the whole pending list. */
  lemma OutcomeCons(db: SchemaState, m: Migration, p: seq<Migration>, db': SchemaState,
                    r: Result<(), DomainError>, run: ScriptRunner)
    requires Outcome(SchemaState(db.recorded + [m.version], db.executed + [m.script]), p, db', r, run)
    ensures Outcome(db, [m] + p, db', r, run)
  {
    var db1 := SchemaState(db.recorded + [m.version], db.executed + [m.script]);
    var n := |db'.recorded| - |db1.recorded|;
    var q := ([m] + p)[..n + 1];
    assert q == [m] + p[..n];
    VersionsCons(m, p[..n]);
    ScriptsCons(m, p[..n]);
    SnocThenAppend(db.recorded, m.version, Versions(p[..n]));
    SnocThenAppend(db.executed, m.script, Scripts(p[..n]));
    if r.Err? {
      assert ([m] + p)[n + 1] == p[n];
    }
  }

  lemma SnocThenAppend<T>(a: seq<T>, x: T, b: seq<T>)
    ensures (a + [x]) + b == a + ([x] + b)
  {
  }

  lemma VersionsCons(m: Migration, p: seq<Migration>)
    ensures Versions([m] + p) == [m.version] + Versions(p)
  {
    var l, r := Versions([m] + p), [m.version] + Versions(p);
    assert forall i :: 0 <= i < |l| ==> l[i] == r[i];
  }

  lemma ScriptsCons(m: Migration, p: seq<Migration>)
    ensures Scripts([m] + p) == [m.script] + Scripts(p)
  {
    var l, r := Scripts([m] + p), [m.script] + Scripts(p);
    assert forall i :: 0 <= i < |l| ==> l[i] == r[i];
  }

  /** The pending migrations are applied in list order, each recorded with
      its script, up to the first one whose transaction fails; that one and
      every later one leave no trace, and earlier commits remain. */
  lemma {:induction false} ApplyFromOutcome(
    db: SchemaState, applied: set<string>, ms: seq<Migration>, run: ScriptRunner)
    requires DistinctVersions(ms)
    requires forall m :: m in ms ==> (m.version in db.recorded <==> m.version in applied)
    decreases |ms|
    ensures Outcome(db, Pending(ms, applied), ApplyFrom(db, applied, ms, run).0,
                    ApplyFrom(db, applied, ms, run).1, run)
  {
    if |ms| == 0 {
      assert Pending(ms, applied)[..0] == [];
    } else {
      var m := ms[0];
      var tail := ms[1..];
      assert forall k :: 0 <= k < |tail| ==> tail[k] == ms[k + 1];
      if m.version in applied {
        ApplyFromOutcome(db, applied, tail, run);
      } else {
        var p := Pending(ms, applied);
        assert p == [m] + Pending(tail, applied);
        match run(db.executed, m.script)
        case Some(_) =>
          assert p[..0] == [];
        case None =>
          assert m.version !in db.recorded;
          var db1 := SchemaState(db.recorded + [m.version], db.executed + [m.script]);
          forall m' | m' in tail ensures (m'.version in db1.recorded <==> m'.version in applied) {
            var k :| 0 <= k < |tail| && tail[k] == m';
            assert ms[k + 1] == m';
          }
          ApplyFromOutcome(db1, applied, tail, run);
          OutcomeCons(db, m, Pending(tail, applied), ApplyFrom(db1, applied, tail, run).0,
                      ApplyFrom(db1, applied, tail, run).1, run);
      }
    }
  }

  /** `apply_migrations` from the table's current contents. */
  lemma ApplyMigrationsOutcome(db: SchemaState, ms: seq<Migration>, run: ScriptRunner)
    requires DistinctVersions(ms)
    ensures var (db', r) := ApplyMigrations(db, ms, run);
            var p := Pending(ms, AppliedSet(db));
            var n := |db'.recorded| - |db.recorded|;
            && 0 <= n <= |p|
            && db'.recorded == db.recorded + Versions(p[..n])
            && db'.executed == db.executed + Scripts(p[..n])
            && (r.Ok? <==> n == |p|)
            && (r.Err? ==> r.error.Storage? && run(db'.executed, p[n].script).Some?)
  {
    ApplyFromOutcome(db, AppliedSet(db), ms, run);
  }

  /** With every version already applied nothing runs. */
  lemma {:induction false} AllAppliedIsNoOp(
    db: SchemaState, applied: set<string>, ms: seq<Migration>, run: ScriptRunner)
    requires forall m :: m in ms ==> m.version in applied
    ensures ApplyFrom(db, applied, ms, run) == (db, Ok(()))
  {
    if |ms| > 0 {
      assert ms[1..] == ms[1..] && forall m :: m in ms[1..] ==> m in ms;
      AllAppliedIsNoOp(db, applied, ms[1..], run);
    }
  }

  /** A run that succeeds has recorded every version of the list, and
      keeps what was recorded before. */
  lemma {:induction false} OkRecordsAll(
    db: SchemaState, applied: set<string>, ms: seq<Migration>, run: ScriptRunner)
    requires forall v :: v in applied ==> v in db.recorded
    decreases |ms|
    ensures var (db', r) := ApplyFrom(db, applied, ms, run);
            r.Ok? ==> && (forall m :: m in ms ==> m.version in db'.recorded)
                      && (forall v :: v in db.recorded ==> v in db'.recorded)
  {
    if |ms| > 0 {
      var tail := ms[1..];
      assert forall m :: m in ms ==> m == ms[0] || m in tail;
      if ms[0].version in applied {
        OkRecordsAll(db, applied, tail, run);
      } else if run(db.executed, ms[0].script).None? && ms[0].version !in db.recorded {
        var db1 := SchemaState(db.recorded + [ms[0].version], db.executed + [ms[0].script]);
        assert ms[0].version in db1.recorded;
        OkRecordsAll(db1, applied, tail, run);
      }
    }
  }

  /** After a successful run every listed version is recorded, so running
      the engine again, whatever the scripts would do, changes nothing. */
  lemma RerunIsNoOp(db: SchemaState, ms: seq<Migration>, run: ScriptRunner, rerun: ScriptRunner)
    requires ApplyMigrations(db, ms, run).1.Ok?
    ensures var db' := ApplyMigrations(db, ms, run).0;
            && (forall m :: m in ms ==> m.version in db'.recorded)
            && ApplyMigrations(db', ms, rerun) == (db', Ok(()))
  {
    OkRecordsAll(db, AppliedSet(db), ms, run);
    var db' := ApplyMigrations(db, ms, run).0;
    AllAppliedIsNoOp(db', AppliedSet(db'), ms, rerun);
  }

  /** Upgrading a database created by the older crate: `001_init.sql` is
      skipped and only `002_users.sql` runs and is recorded; a fresh
      database runs both, in order. */
  lemma UpgradeFromLegacy(run: ScriptRunner)
    requires forall done: seq<string>, script: string :: run(done, script) == None
    ensures var legacy := SchemaState(["001_init.sql"], ["migrations/001_init.sql"]);
            ApplyMigrations(legacy, MIGRATIONS, run)
              == (SchemaState(["001_init.sql", "002_users.sql"],
                              ["migrations/001_init.sql", "migrations/002_users.sql"]), Ok(()))
    ensures ApplyMigrations(SchemaState([], []), MIGRATIONS, run)
              == (SchemaState(["001_init.sql", "002_users.sql"],
                              ["migrations/001_init.sql", "migrations/002_users.sql"]), Ok(()))
  {
    var m1, m2 := MIGRATIONS[0], MIGRATIONS[1];
    var both := SchemaState(["001_init.sql", "002_users.sql"],
                            ["migrations/001_init.sql", "migrations/002_users.sql"]);
    var legacy := SchemaState(["001_init.sql"], ["migrations/001_init.sql"]);
    var applied := AppliedSet(legacy);
    assert m1.version in applied && m2.version !in applied;
    assert MIGRATIONS[1..] == [m2] && [m2][1..] == [];
    assert run(legacy.executed, m2.script) == None;
    assert m2.version !in legacy.recorded;
    assert legacy.recorded + [m2.version] == both.recorded;
    assert legacy.executed + [m2.script] == both.executed;
    assert ApplyFrom(legacy, applied, [m2], run) == ApplyFrom(both, applied, [], run);
    var empty := SchemaState([], []);
    var none := AppliedSet(empty);
    assert m1.version !in none && m2.version !in none;
    assert run(empty.executed, m1.script) == None;
    assert m1.version !in empty.recorded;
    assert empty.recorded + [m1.version] == legacy.recorded;
    assert empty.executed + [m1.script] == legacy.executed;
    assert ApplyFrom(empty, none, MIGRATIONS, run) == ApplyFrom(legacy, none, [m2], run);
    assert run(legacy.executed, m2.script) == None;
    assert ApplyFrom(legacy, none, [m2], run) == ApplyFrom(both, none, [], run);
  }
}

=== FILE: models.dfy ===
/** The domain crate's value types: entry ids, kinds, categories, money,
    new and stored entries, the list filter, users and the three-way error
    kind. `Money` is held as an integer count of minor units plus a
    currency tag; dates are calendar days. */
module Models {
  import opened Wrappers
  import opened Numerals
  import opened Text
  import opened Calendar

  /** `DomainError`: every failure the repositories report. */
  datatype DomainError = Storage(message: string) | NotFound | InvalidData(message: string)

  /** `EntryId(i64)`, assigned by storage. */
  datatype EntryId = EntryId(value: I64)

  /** The derived `Ord` of `EntryId`: that of the inner integer. */
  predicate IdLess(a: EntryId, b: EntryId) {
    a.value < b.value
  }

  /** `EntryId`'s `Display`: the inner integer's decimal text, which reads
      back as that integer, so distinct ids display differently. */
  function DisplayId(id: EntryId): (s: string)
    ensures ParseI64(s) == Some(id.value)
  {
    ParseShowInt(id.value);
    ShowInt(id.value)
  }

  lemma DisplayIdInjective(a: EntryId, b: EntryId)
    ensures DisplayId(a) == DisplayId(b) <==> a == b
  {
    if DisplayId(a) == DisplayId(b) {
      assert Some(a.value) == Some(b.value);
    }
  }

  datatype EntryKind = Expense | Income

  const EMPTY_CATEGORY_MESSAGE: string := "Category cannot be empty"

  /** `Category(String)`: a name that does not trim to nothing. The name is
      kept exactly as given, surrounding white space included. */
  type Category = name: string | HasVisibleChar(name) witness "misc"

  /** `Category::new`: refuses a name that trims to nothing, otherwise keeps
      it untrimmed. */
  function NewCategory(name: string): (r: Result<Category, DomainError>)
    ensures r.Err? <==> IsBlank(name)
    ensures r.Err? ==> r.error == InvalidData(EMPTY_CATEGORY_MESSAGE)
    ensures r.Ok? ==> r.value == name
  {
    TrimEmptyIffBlank(name);
    VisibleIffNotBlank(name);
    if Trim(name) == [] then Err(InvalidData(EMPTY_CATEGORY_MESSAGE)) else Ok(name)
  }

  /** `Category::as_str` (and `AsRef<str>`). */
  function AsStr(c: Category): string {
    c
  }

  /** Construction and `as_str` are inverse: every category is rebuilt from
      its text, and an accepted name is returned unchanged. */
  lemma CategoryRoundTrip(c: Category, name: string)
    ensures NewCategory(AsStr(c)) == Ok(c)
    ensures NewCategory(name).Ok? ==> AsStr(NewCategory(name).value) == name
  {
    VisibleIffNotBlank(c);
  }

  /** An ISO currency: its code and the number of minor-unit digits. */
  datatype Currency = Currency(code: string, exponent: nat)

  const USD: Currency := Currency("USD", 2)

  /** A monetary amount as a signed count of minor units (cents for USD). */
  datatype Money = Money(minor: I64, currency: Currency)

  predicate IsNegative(m: Money) {
    m.minor < 0
  }

  predicate IsZero(m: Money) {
    m.minor == 0
  }

  /** `NewEntry`: what a caller asks the repository to store. */
  datatype NewEntry = NewEntry(
    kind: EntryKind,
    amount: Money,
    category: Category,
    note: Option<string>,
    occurredOn: CalDate)

  /** `Entry`: a stored entry with its storage-assigned id. */
  datatype Entry = Entry(
    id: EntryId,
    kind: EntryKind,
    amount: Money,
    category: Category,
    note: Option<string>,
    occurredOn: CalDate)

  /** The fields of a new entry under a given id. */
  function WithId(e: NewEntry, id: EntryId): (r: Entry)
    ensures r.id == id
    ensures NewEntry(r.kind, r.amount, r.category, r.note, r.occurredOn) == e
  {
    Entry(id, e.kind, e.amount, e.category, e.note, e.occurredOn)
  }

  const AMOUNT_MESSAGE: string := "Amount must be positive"

  /** `NewEntry::validate`: only the amount is inspected, and it must be
      strictly positive. */
  function Validate(e: NewEntry): (r: Result<(), DomainError>)
    ensures r.Ok? <==> e.amount.minor > 0
    ensures r.Err? ==> r.error == InvalidData(AMOUNT_MESSAGE)
  {
    if IsNegative(e.amount) || IsZero(e.amount) then Err(InvalidData(AMOUNT_MESSAGE)) else Ok(())
  }

  /** Two new entries with the same amount validate alike, whatever their
      kind, category, note or date. */
  lemma ValidateReadsOnlyAmount(e: NewEntry, e': NewEntry)
    requires e.amount == e'.amount
    ensures Validate(e) == Validate(e')
  {
  }

  /** `EntryFilter`: each bound is optional and absent means unconstrained. */
  datatype EntryFilter = EntryFilter(
    from: Option<CalDate>,
    to: Option<CalDate>,
    category: Option<Category>)

  /** `EntryFilter::default()`. */
  const DEFAULT_FILTER: EntryFilter := EntryFilter(None, None, None)

  /** `User`: a stored account as the credential repository reports it. */
  datatype User = User(id: I64, username: string)
}

=== FILE: numerals.dfy ===
/** Signed 64-bit integers and their decimal text: Rust's `i64`, its
    `Display` rendering and `str::parse::<i64>`, plus the fixed-width
    zero-padded digit strings used by date formatting. */
module Numerals {
  import opened Wrappers

  const I64_MIN: int := -0x8000_0000_0000_0000
  const I64_MAX: int := 0x7FFF_FFFF_FFFF_FFFF
  const TWO_POW_64: int := 0x1_0000_0000_0000_0000

  /** Rust's `i64`. */
  type I64 = n: int | I64_MIN <= n <= I64_MAX

  /** Two's-complement wrap-around of an unbounded integer into `i64`, the
      result of an overflowing `i64` operation in a release build. */
  function Wrap64(x: int): (r: I64)
    ensures I64_MIN <= x <= I64_MAX ==> r == x
    ensures (r - x) % TWO_POW_64 == 0
  {
    (x - I64_MIN) % TWO_POW_64 + I64_MIN
  }

  lemma DivNonneg(n: nat, p: nat)
    requires p >= 1
    ensures n / p >= 0
  {
  }

  predicate IsDigit(c: char) {
    '0' <= c <= '9'
  }

  predicate AllDigits(s: string) {
    forall i :: 0 <= i < |s| ==> IsDigit(s[i])
  }

  function DigitValue(c: char): nat
    requires IsDigit(c)
  {
    (c as int) - ('0' as int)
  }

  function DigitChar(n: int): (c: char)
    requires 0 <= n < 10
    ensures IsDigit(c) && DigitValue(c) == n
  {
    (('0' as int) + n) as char
  }

  function Pow10(k: nat): (p: nat)
    ensures p >= 1
  {
    if k == 0 then 1 else 10 * Pow10(k - 1)
  }

  /** The number a digit string denotes, most significant digit first;
      leading zeros are allowed. */
  function Value(s: string): nat
    requires AllDigits(s)
  {
    if |s| == 0 then 0 else Value(s[..|s| - 1]) * 10 + DigitValue(s[|s| - 1])
  }

  /** `n` rendered in exactly `width` digits, zero-padded on the left (the
      `%04` / `%02` style used for calendar fields). */
  function Pad(n: nat, width: nat): (s: string)
    ensures |s| == width && AllDigits(s)
  {
    if width == 0 then [] else Pad(n / 10, width - 1) + [DigitChar(n % 10)]
  }

  /** The decimal rendering of a natural number, without leading zeros. */
  function ShowNat(n: nat): (s: string)
    ensures |s| >= 1 && AllDigits(s)
  {
    if n < 10 then [DigitChar(n)] else ShowNat(n / 10) + [DigitChar(n % 10)]
  }

  /** Rust's `Display` for a signed integer: a '-' before the magnitude when
      negative. */
  function ShowInt(n: int): (s: string)
    ensures |s| >= 1
    ensures n < 0 <==> s[0] == '-'
    ensures n >= 0 ==> AllDigits(s)
  {
    if n < 0 then "-" + ShowNat(-n) else ShowNat(n)
  }

  /** Rust's `str::parse::<i64>`: an optional '+' or '-', then at least one
      ASCII digit and nothing else; `None` when the text is malformed or the
      value lies outside `i64`. */
  function ParseI64(s: string): (r: Option<I64>)
    ensures r.Some? ==> |s| >= 1
    ensures AllDigits(s) && |s| >= 1 && Value(s) <= I64_MAX ==> r == Some(Value(s))
    ensures |s| >= 2 && s[0] == '-' && AllDigits(s[1..]) && Value(s[1..]) <= -I64_MIN
            ==> r == Some(0 - Value(s[1..]))
    ensures |s| >= 2 && s[0] == '+' && AllDigits(s[1..]) && Value(s[1..]) <= I64_MAX
            ==> r == Some(Value(s[1..]))
    ensures AllDigits(s) && |s| >= 1 && Value(s) > I64_MAX ==> r == None
    ensures |s| >= 2 && s[0] == '+' && AllDigits(s[1..]) && Value(s[1..]) > I64_MAX ==> r == None
    ensures |s| >= 2 && s[0] == '-' && AllDigits(s[1..]) && Value(s[1..]) > -I64_MIN ==> r == None
    ensures s == "" || s == "+" || s == "-" ==> r == None
    ensures (exists i :: 0 <= i < |s| && !IsDigit(s[i]) && (i > 0 || (s[0] != '-' && s[0] != '+')))
            ==> r == None
  {
    if |s| == 0 then None
    else
      var digits := if s[0] == '+' || s[0] == '-' then s[1..] else s;
      if |digits| == 0 || !AllDigits(digits) then None
      else
        var v: int := if s[0] == '-' then 0 - Value(digits) else Value(digits);
        if I64_MIN <= v <= I64_MAX then Some(v) else None
  }

  lemma {:induction false} ValueBound(s: string)
    requires AllDigits(s)
    ensures Value(s) < Pow10(|s|)
  {
    if |s| > 0 {
      ValueBound(s[..|s| - 1]);
    }
  }

  /** Reading back a padded rendering gives the number modulo the width. */
  lemma {:induction false} ValuePad(n: nat, width: nat)
    ensures Value(Pad(n, width)) == n % Pow10(width)
  {
    if width > 0 {
      var s := Pad(n, width);
      assert s[..width - 1] == Pad(n / 10, width - 1);
      ValuePad(n / 10, width - 1);
      DivModShift(n, Pow10(width - 1));
    }
  }

  /** A number below the width's power of ten reads back unchanged. */
  lemma ValuePadSmall(n: nat, width: nat)
    requires n < Pow10(width)
    ensures Value(Pad(n, width)) == n
  {
    ValuePad(n, width);
    ModUnique(n, Pow10(width), 0, n);
  }

  /** Splitting off the last decimal digit commutes with reduction modulo a
      power of ten. */
  lemma DivModShift(n: nat, p: nat)
    requires p >= 1
    ensures (n / 10) % p * 10 + n % 10 == n % (10 * p)
  {
    var q := n / 10;
    var d := n % 10;
    var a := q / p;
    var b := q % p;
    assert n == a * (10 * p) + (b * 10 + d) by {
      assert n == q * 10 + d;
      assert q == a * p + b;
    }
    ModUnique(n, 10 * p, a, b * 10 + d);
  }

  /** Euclidean division has a unique remainder. */
  lemma ModUnique(n: int, m: int, a: int, r: int)
    requires m > 0 && n == a * m + r && 0 <= r < m
    ensures n % m == r
  {
    var a' := n / m;
    var r' := n % m;
    assert (a - a') * m == r' - r;
    if a > a' {
      MulAtLeast(a - a', m);
    } else if a < a' {
      MulAtLeast(a' - a, m);
    }
  }

  lemma MulAtLeast(k: int, m: int)
    requires k >= 1 && m > 0
    ensures k * m >= m
  {
    assert k * m == (k - 1) * m + m;
  }

  /** Padding the value of a digit string to its own width gives it back. */
  lemma {:induction false} PadValue(s: string)
    requires AllDigits(s)
    ensures Pad(Value(s), |s|) == s
  {
    if |s| > 0 {
      var init := s[..|s| - 1];
      var v := Value(s);
      assert v / 10 == Value(init);
      assert v % 10 == DigitValue(s[|s| - 1]);
      PadValue(init);
      assert DigitChar(v % 10) == s[|s| - 1];
      assert s == init + [s[|s| - 1]];
    }
  }

  lemma {:induction false} ValueShowNat(n: nat)
    ensures Value(ShowNat(n)) == n
  {
    if n >= 10 {
      var s := ShowNat(n);
      assert s[..|s| - 1] == ShowNat(n / 10);
      ValueShowNat(n / 10);
    }
  }

  /** The value of a concatenation of digit strings. */
  lemma {:induction false} ValueConcat(a: string, b: string)
    requires AllDigits(a) && AllDigits(b)
    ensures AllDigits(a + b)
    ensures Value(a + b) == Value(a) * Pow10(|b|) + Value(b)
  {
    var ab := a + b;
    assert AllDigits(ab) by {
      forall i | 0 <= i < |ab| ensures IsDigit(ab[i]) {
        if i < |a| { assert ab[i] == a[i]; } else { assert ab[i] == b[i - |a|]; }
      }
    }
    if |b| > 0 {
      var b' := b[..|b| - 1];
      assert ab[..|ab| - 1] == a + b';
      assert ab[|ab| - 1] == b[|b| - 1];
      ValueConcat(a, b');
      assert Value(ab) == Value(a + b') * 10 + DigitValue(b[|b| - 1]);
      MulAddShift(Value(a), Pow10(|b'|), Value(b'), DigitValue(b[|b| - 1]));
      assert Pow10(|b|) == Pow10(|b'|) * 10;
    } else {
      assert ab == a;
    }
  }

  lemma MulAddShift(x: int, p: int, y: int, d: int)
    ensures (x * p + y) * 10 + d == x * (p * 10) + (y * 10 + d)
  {
    assert (x * p + y) * 10 == x * p * 10 + y * 10;
    assert x * p * 10 == x * (p * 10);
  }

  /** `parse::<i64>` inverts `Display` on every `i64`. */
  lemma ParseShowInt(n: I64)
    ensures ParseI64(ShowInt(n)) == Some(n)
  {
    var s := ShowInt(n);
    if n < 0 {
      var m: nat := 0 - (n as int);
      assert s[1..] == ShowNat(m);
      ValueShowNat(m);
    } else {
      ValueShowNat(n);
    }
  }

  /** Distinct integers have distinct renderings. */
  lemma ShowIntInjective(a: I64, b: I64)
    requires ShowInt(a) == ShowInt(b)
    ensures a == b
  {
    ParseShowInt(a);
    ParseShowInt(b);
  }
}

=== FILE: repository.dfy ===
/** `SqliteRepository::new` for both storage crates: open the database,
    then bring its schema up to date before handing out a repository. The
    database is its schema history plus the two tables. */
module Repository {
  import opened Wrappers
  import opened Models
  import opened Migrations
  import opened EntryTable
  import opened UserStore

  datatype Database = Database(schema: SchemaState, entries: Table, users: UserTable)

  /** Every version of the list is recorded: the schema the operations rely
      on is in place. */
  predicate SchemaReady(db: Database, ms: seq<Migration>) {
    forall m :: m in ms ==> m.version in db.schema.recorded
  }

  /** `new`: a connection failure (`openError`) is a `Storage` error and
      touches nothing; otherwise the migrations run, and whatever they
      committed stays in the file even when a later one fails. Rows are
      never touched. */
  function Open(db: Database, ms: seq<Migration>, openError: Option<string>, run: ScriptRunner)
    : (r: (Database, Result<(), DomainError>))
    ensures r.0.entries == db.entries && r.0.users == db.users
    ensures openError.Some? ==> r == (db, Err(Storage(openError.value)))
    ensures r.1.Ok? ==> SchemaReady(r.0, ms)
    ensures r.1.Err? ==> r.1.error.Storage?
  {
    match openError
    case Some(message) => (db, Err(Storage(message)))
    case None =>
      var (schema, res) := ApplyMigrations(db.schema, ms, run);
      var db' := Database(schema, db.entries, db.users);
      if res.Ok? then
        RerunIsNoOp(db.schema, ms, run, run);
        (db', res)
      else
        (db', res)
  }

  /** Opening the same file a second time applies nothing and leaves every
      row as it was. */
  lemma OpenTwice(db: Database, ms: seq<Migration>, run: ScriptRunner, rerun: ScriptRunner)
    requires Open(db, ms, None, run).1.Ok?
    ensures var db' := Open(db, ms, None, run).0;
            Open(db', ms, None, rerun) == (db', Ok(()))
  {
    var db' := Open(db, ms, None, run).0;
    RerunIsNoOp(db.schema, ms, run, rerun);
  }

  /** Both crates' migration lists have distinct versions, and the newer
      list extends the older, so a file created by the older crate is
      upgraded by running the newer list's remaining scripts. */
  lemma MigrationListsDistinct()
    ensures DistinctVersions(MIGRATIONS) && DistinctVersions(LEGACY_MIGRATIONS)
    ensures LEGACY_MIGRATIONS == MIGRATIONS[..1]
  {
  }
}

=== FILE: screens.dfy ===
/** The identifiers of the three screens and what a screen asks of the
    application after handling an action. */
module Screens {

  datatype ScreenId = Dashboard | Login | CreateUser

  /** `ScreenResult`: stay (`None`), quit, or switch to another screen. */
  datatype ScreenResult = None | Quit | Go(id: ScreenId)
}

=== FILE: sorting.dfy ===
/** Sorting by a "comes before" relation, as the `ORDER BY` clauses of the
    repository queries do. The result is a permutation of the input in
    which no element comes before one placed ahead of it. */
module Sorting {

  /** A strict weak order: irreflexive, transitive, and "not before" is
      transitive too (incomparable elements behave like equals). Every
      ordering by a key, ties included, is one. */
  ghost predicate StrictWeakOrder<T(!new)>(before: (T, T) -> bool) {
    && (forall a :: !before(a, a))
    && (forall a, b, c :: before(a, b) && before(b, c) ==> before(a, c))
    && (forall a, b, c :: !before(a, b) && !before(b, c) ==> !before(a, c))
  }

  /** No element comes strictly before an element placed ahead of it. */
  ghost predicate SortedBy<T>(s: seq<T>, before: (T, T) -> bool) {
    forall i, j :: 0 <= i < j < |s| ==> !before(s[j], s[i])
  }

  /** Places `x` ahead of the first element it does not come after. */
  function Insert<T>(x: T, s: seq<T>, before: (T, T) -> bool): (r: seq<T>)
    ensures multiset(r) == multiset(s) + multiset{x}
    ensures |r| == |s| + 1
  {
    if |s| == 0 then [x]
    else if before(s[0], x) then
      assert s == [s[0]] + s[1..];
      [s[0]] + Insert(x, s[1..], before)
    else
      [x] + s
  }

  /** Insertion sort. */
  function Sort<T>(s: seq<T>, before: (T, T) -> bool): (r: seq<T>)
    ensures multiset(r) == multiset(s)
    ensures |r| == |s|
  {
    if |s| == 0 then []
    else
      assert s == [s[0]] + s[1..];
      Insert(s[0], Sort(s[1..], before), before)
  }

  lemma {:induction false} InsertSorted<T(!new)>(x: T, s: seq<T>, before: (T, T) -> bool)
    requires StrictWeakOrder(before)
    requires SortedBy(s, before)
    ensures SortedBy(Insert(x, s, before), before)
  {
    if |s| > 0 {
      if before(s[0], x) {
        var rest := Insert(x, s[1..], before);
        InsertSorted(x, s[1..], before);
        var r := [s[0]] + rest;
        forall j | 0 < j < |r| ensures !before(r[j], s[0]) {
          var y := r[j];
          assert y in multiset(rest);
          assert y in multiset(s[1..]) || y == x;
          if y != x {
            var k :| 0 <= k < |s[1..]| && s[1..][k] == y;
            assert s[k + 1] == y;
          }
        }
      } else {
        var r := [x] + s;
        forall j | 0 < j < |r| ensures !before(r[j], x) {
          assert r[j] == s[j - 1];
          assert !before(s[j - 1], s[0]);
        }
      }
    }
  }

  lemma {:induction false} SortSorted<T(!new)>(s: seq<T>, before: (T, T) -> bool)
    requires StrictWeakOrder(before)
    ensures SortedBy(Sort(s, before), before)
  {
    if |s| > 0 {
      SortSorted(s[1..], before);
      InsertSorted(s[0], Sort(s[1..], before), before);
    }
  }

  lemma SortSingleton<T>(x: T, before: (T, T) -> bool)
    ensures Sort([x], before) == [x]
  {
    assert [x][1..] == [];
  }
}

=== FILE: text.dfy ===
/** Text operations the core relies on: Rust's `str::trim` (Unicode
    White_Space on both ends) and the byte-wise ordering SQLite applies to
    TEXT values under its default BINARY collation. Strings are sequences of
    Unicode scalar values; comparing scalar values orders them exactly as
    comparing their UTF-8 encodings byte by byte does. */
module Text {
  import opened Numerals

  /** The 25 code points with the Unicode White_Space property, which
      `char::is_whitespace` and therefore `str::trim` use. */
  const WHITE_SPACE: set<int> := {
    0x09, 0x0A, 0x0B, 0x0C, 0x0D, 0x20, 0x85, 0xA0, 0x1680,
    0x2000, 0x2001, 0x2002, 0x2003, 0x2004, 0x2005, 0x2006, 0x2007, 0x2008, 0x2009, 0x200A,
    0x2028, 0x2029, 0x202F, 0x205F, 0x3000
  }

  predicate IsWhiteSpace(c: char) {
    c as int in WHITE_SPACE
  }

  /** Every character is white space (the empty string included). */
  predicate IsBlank(s: string) {
    forall i :: 0 <= i < |s| ==> IsWhiteSpace(s[i])
  }

  /** Some character is not white space; the negation of `IsBlank`, in a
      form that can be checked on a literal. */
  predicate HasVisibleChar(s: string) {
    |s| > 0 && (!IsWhiteSpace(s[0]) || HasVisibleChar(s[1..]))
  }

  lemma {:induction false} VisibleIffNotBlank(s: string)
    ensures HasVisibleChar(s) <==> !IsBlank(s)
  {
    if |s| > 0 {
      VisibleIffNotBlank(s[1..]);
      if IsBlank(s[1..]) && IsWhiteSpace(s[0]) {
        forall i | 0 <= i < |s| ensures IsWhiteSpace(s[i]) {
          if i > 0 { assert s[i] == s[1..][i - 1]; }
        }
      }
    }
  }

  /** `str::trim_start`: drops the longest all-white-space prefix. */
  function TrimStart(s: string): (r: string)
    ensures |r| <= |s| && r == s[|s| - |r|..]
    ensures IsBlank(s[..|s| - |r|])
    ensures |r| > 0 ==> !IsWhiteSpace(r[0])
  {
    if |s| > 0 && IsWhiteSpace(s[0]) then
      var r := TrimStart(s[1..]);
      var k := |s| - |r|;
      assert r == s[k..] by {
        assert s[1..][k - 1..] == s[k..];
      }
      BlankPrefixCons(s, k);
      r
    else
      s
  }

  /** A white-space character followed by a blank run is a blank run. */
  lemma BlankPrefixCons(s: string, k: nat)
    requires 1 <= k <= |s| && IsWhiteSpace(s[0]) && IsBlank(s[1..][..k - 1])
    ensures IsBlank(s[..k])
  {
    forall i | 0 <= i < k ensures IsWhiteSpace(s[..k][i]) {
      if i > 0 {
        assert s[..k][i] == s[1..][..k - 1][i - 1];
      }
    }
  }

  /** `str::trim_end`: drops the longest all-white-space suffix. */
  function TrimEnd(s: string): (r: string)
    ensures |r| <= |s| && r == s[..|r|]
    ensures IsBlank(s[|r|..])
    ensures |r| > 0 ==> !IsWhiteSpace(r[|r| - 1])
  {
    if |s| > 0 && IsWhiteSpace(s[|s| - 1]) then
      var r := TrimEnd(s[..|s| - 1]);
      var k := |r|;
      assert r == s[..k] by {
        assert s[..|s| - 1][..k] == s[..k];
      }
      BlankSuffixSnoc(s, k);
      r
    else
      s
  }

  /** A blank run followed by a white-space character is a blank run. */
  lemma BlankSuffixSnoc(s: string, k: nat)
    requires k < |s| && IsWhiteSpace(s[|s| - 1]) && IsBlank(s[..|s| - 1][k..])
    ensures IsBlank(s[k..])
  {
    forall i | 0 <= i < |s| - k ensures IsWhiteSpace(s[k..][i]) {
      if i < |s| - 1 - k {
        assert s[k..][i] == s[..|s| - 1][k..][i];
      }
    }
  }

  /** `str::trim`. */
  function Trim(s: string): string {
    TrimEnd(TrimStart(s))
  }

  /** A string trims to nothing exactly when it is blank; this is the test
      `Category::new` applies. */
  lemma TrimEmptyIffBlank(s: string)
    ensures Trim(s) == [] <==> IsBlank(s)
  {
    if Trim(s) == [] {
      TrimmedAwayIsBlank(s);
    } else if IsBlank(s) {
      BlankTrimsAway(s);
    }
  }

  lemma BlankTrimsAway(s: string)
    requires IsBlank(s)
    ensures Trim(s) == []
  {
  }

  lemma TrimmedAwayIsBlank(s: string)
    requires Trim(s) == []
    ensures IsBlank(s)
  {
    assert s[..|s|] == s;
  }

  /** SQLite's BINARY collation on TEXT: lexicographic, a proper prefix
      sorts first. */
  predicate LexLess(a: string, b: string) {
    if |a| == 0 then |b| > 0
    else if |b| == 0 then false
    else a[0] < b[0] || (a[0] == b[0] && LexLess(a[1..], b[1..]))
  }

  lemma {:induction false} LexIrreflexive(a: string)
    ensures !LexLess(a, a)
  {
    if |a| > 0 {
      LexIrreflexive(a[1..]);
    }
  }

  lemma {:induction false} LexTransitive(a: string, b: string, c: string)
    requires LexLess(a, b) && LexLess(b, c)
    ensures LexLess(a, c)
  {
    if |a| > 0 && a[0] == b[0] && b[0] == c[0] {
      LexTransitive(a[1..], b[1..], c[1..]);
    }
  }

  lemma {:induction false} LexTrichotomy(a: string, b: string)
    ensures LexLess(a, b) || a == b || LexLess(b, a)
  {
    if |a| > 0 && |b| > 0 && a[0] == b[0] {
      LexTrichotomy(a[1..], b[1..]);
      if a[1..] == b[1..] {
        assert a == [a[0]] + a[1..] && b == [b[0]] + b[1..];
      }
    }
  }

  lemma LexAsymmetric(a: string, b: string)
    requires LexLess(a, b)
    ensures !LexLess(b, a)
  {
    if LexLess(b, a) {
      LexTransitive(a, b, a);
      LexIrreflexive(a);
    }
  }

  /** Comparing two texts that both start with a field of the same width
      decides on that field first and on the remainder only when the fields
      agree. */
  lemma {:induction false} LexSameWidthPrefix(p: string, q: string, s: string, t: string)
    requires |p| == |q|
    ensures LexLess(p + s, q + t) == if p == q then LexLess(s, t) else LexLess(p, q)
  {
    if |p| > 0 {
      assert (p + s)[1..] == p[1..] + s;
      assert (q + t)[1..] == q[1..] + t;
      LexSameWidthPrefix(p[1..], q[1..], s, t);
      if p[0] == q[0] && p[1..] == q[1..] {
        assert p == [p[0]] + p[1..] && q == [q[0]] + q[1..];
      }
    } else {
      assert p + s == s && q + t == t;
    }
  }

  /** On zero-padded fields of one width, text order is numeric order. */
  lemma {:induction false} LexLessPad(a: nat, b: nat, width: nat)
    requires a < Pow10(width) && b < Pow10(width)
    ensures LexLess(Pad(a, width), Pad(b, width)) <==> a < b
  {
    if width == 0 {
      assert a == 0 && b == 0;
    } else {
      var pa, pb := Pad(a / 10, width - 1), Pad(b / 10, width - 1);
      LexSameWidthPrefix(pa, pb, [DigitChar(a % 10)], [DigitChar(b % 10)]);
      LexLessPad(a / 10, b / 10, width - 1);
      PadInjective(a / 10, b / 10, width - 1);
    }
  }

  lemma PadInjective(a: nat, b: nat, width: nat)
    requires a < Pow10(width) && b < Pow10(width)
    ensures Pad(a, width) == Pad(b, width) <==> a == b
  {
    ValuePad(a, width);
    ValuePad(b, width);
  }
}

=== FILE: user_store.dfy ===
/** The credential operations of the current repository (`UserRepository`
    for `SqliteRepository`) over the `users` table, whose `username` column
    is unique. The password-hashing scheme is a parameter: hashing with a
    salt, recognising a stored hash, and checking a password against one. */
module UserStore {
  import opened Wrappers
  import opened Numerals
  import opened Text
  import opened Models
  import opened Sorting

  /** The hashing scheme the model leaves uninterpreted: `hash(password,
      salt)` gives the stored string or the hasher's error message;
      `parseError(stored)` is `None` for a well-formed stored hash and the
      parser's message otherwise; `verifies(password, stored)` says whether
      the password matches. */
  datatype PasswordScheme = PasswordScheme(
    hash: (string, string) -> Result<string, string>,
    parseError: string -> Option<string>,
    verifies: (string, string) -> bool)

  datatype UserRow = UserRow(id: I64, username: string, passwordHash: string)

  datatype UserTable = UserTable(rows: seq<UserRow>, nextId: nat)

  const EMPTY_USERS: UserTable := UserTable([], 1)

  const HASHING_FAILED_PREFIX: string := "Hashing failed: "
  const INVALID_HASH_PREFIX: string := "Invalid hash: "
  const DUPLICATE_USERNAME_MESSAGE: string := "UNIQUE constraint failed: users.username"
  const USERS_FULL_MESSAGE: string := "database or disk is full"

  predicate HasUser(t: UserTable, username: string) {
    exists i :: 0 <= i < |t.rows| && t.rows[i].username == username
  }

  /** Ids increase in insertion order below the next one, and no username
      is stored twice. */
  predicate WellFormed(t: UserTable) {
    && 1 <= t.nextId
    && (forall i :: 0 <= i < |t.rows| ==> 1 <= t.rows[i].id < t.nextId)
    && (forall i, j :: 0 <= i < j < |t.rows| ==> t.rows[i].id < t.rows[j].id)
    && (forall i, j :: 0 <= i < j < |t.rows| ==> t.rows[i].username != t.rows[j].username)
  }

  /** `create_user`: hashes the password with the given salt, then inserts
      the user; a hashing failure, a write failure, a taken username or an
      exhausted id space is a `Storage` error that leaves the table as it
      was. */
  function CreateUser(t: UserTable, username: string, password: string, salt: string,
                      scheme: PasswordScheme, fault: Option<string>)
    : (r: (UserTable, Result<User, DomainError>))
    ensures r.1.Err? ==> r.0 == t && r.1.error.Storage?
    ensures scheme.hash(password, salt).Err? ==>
              r.1 == Err(Storage(HASHING_FAILED_PREFIX + scheme.hash(password, salt).error))
    ensures HasUser(t, username) ==> r.1.Err?
    ensures r.1.Ok? <==>
              scheme.hash(password, salt).Ok? && fault.None? && !HasUser(t, username) && t.nextId <= I64_MAX
    ensures r.1.Ok? ==>
              && r.1.value.username == username
              && r.0.rows == t.rows + [UserRow(r.1.value.id, username, scheme.hash(password, salt).value)]
              && (WellFormed(t) ==> forall x :: x in t.rows ==> x.id < r.1.value.id)
    ensures WellFormed(t) ==> WellFormed(r.0)
  {
    match scheme.hash(password, salt)
    case Err(message) => (t, Err(Storage(HASHING_FAILED_PREFIX + message)))
    case Ok(stored) =>
      if fault.Some? then (t, Err(Storage(fault.value)))
      else if HasUser(t, username) then (t, Err(Storage(DUPLICATE_USERNAME_MESSAGE)))
      else if t.nextId > I64_MAX then (t, Err(Storage(USERS_FULL_MESSAGE)))
      else
        var id: I64 := t.nextId;
        (UserTable(t.rows + [UserRow(id, username, stored)], id + 1), Ok(User(id, username)))
  }

  /** `SELECT ... WHERE username = ?1` read with `query_row`: the first
      matching row. */
  function Lookup(rows: seq<UserRow>, username: string): (r: Option<UserRow>)
    ensures r.None? <==> forall i :: 0 <= i < |rows| ==> rows[i].username != username
    ensures r.Some? ==> r.value in rows && r.value.username == username
  {
    if |rows| == 0 then None
    else if rows[0].username == username then Some(rows[0])
    else
      var r := Lookup(rows[1..], username);
      assert forall i :: 1 <= i < |rows| ==> rows[i] == rows[1..][i - 1];
      r
  }

  /** `verify_user`: an unknown username and a wrong password are both
      `Ok(None)`; a stored hash that does not parse is a `Storage` error. */
  function VerifyUser(t: UserTable, username: string, password: string, scheme: PasswordScheme)
    : (r: Result<Option<User>, DomainError>)
    ensures !HasUser(t, username) ==> r == Ok(None)
    ensures r.Err? ==> r.error.Storage?
    ensures Lookup(t.rows, username).Some? &&
            scheme.parseError(Lookup(t.rows, username).value.passwordHash).Some? ==>
              r == Err(Storage(INVALID_HASH_PREFIX +
                               scheme.parseError(Lookup(t.rows, username).value.passwordHash).value))
    ensures Lookup(t.rows, username).Some? &&
            scheme.parseError(Lookup(t.rows, username).value.passwordHash).None? ==>
              (r == Ok(None) <==> !scheme.verifies(password, Lookup(t.rows, username).value.passwordHash))
    ensures Lookup(t.rows, username).Some? &&
            scheme.parseError(Lookup(t.rows, username).value.passwordHash).None? &&
            scheme.verifies(password, Lookup(t.rows, username).value.passwordHash) ==>
              r == Ok(Some(User(Lookup(t.rows, username).value.id, username)))
    ensures r.Ok? && r.value.Some? ==>
              && r.value.value.username == username
              && exists x :: x in t.rows && x.id == r.value.value.id && x.username == username
                             && scheme.parseError(x.passwordHash).None?
                             && scheme.verifies(password, x.passwordHash)
  {
    match Lookup(t.rows, username)
    case None => Ok(None)
    case Some(x) =>
      match scheme.parseError(x.passwordHash)
      case Some(message) => Err(Storage(INVALID_HASH_PREFIX + message))
      case None =>
        if scheme.verifies(password, x.passwordHash) then Ok(Some(User(x.id, x.username)))
        else Ok(None)
  }

  /** `list_users`: every username, in ascending (binary) order. */
  function ListUsers(t: UserTable): seq<string> {
    Sort(Usernames(t.rows), LexLess)
  }

  function Usernames(rows: seq<UserRow>): (names: seq<string>)
    ensures |names| == |rows|
    ensures forall i :: 0 <= i < |rows| ==> names[i] == rows[i].username
  {
    seq(|rows|, i requires 0 <= i < |rows| => rows[i].username)
  }

  lemma LexLessIsStrictWeakOrder()
    ensures StrictWeakOrder(LexLess)
  {
    forall a: string ensures !LexLess(a, a) {
      LexIrreflexive(a);
    }
    forall a: string, b: string, c: string | LexLess(a, b) && LexLess(b, c) ensures LexLess(a, c) {
      LexTransitive(a, b, c);
    }
    forall a: string, b: string, c: string | !LexLess(a, b) && !LexLess(b, c) ensures !LexLess(a, c) {
      LexTrichotomy(a, b);
      LexTrichotomy(b, c);
      if LexLess(b, a) && LexLess(c, b) {
        LexTransitive(c, b, a);
        LexAsymmetric(c, a);
      }
    }
  }

  /** `list_users` returns exactly the stored usernames, in ascending
      order. */
  lemma ListUsersSorted(t: UserTable)
    ensures multiset(ListUsers(t)) == multiset(Usernames(t.rows))
    ensures forall i, j :: 0 <= i < j < |ListUsers(t)| ==> !LexLess(ListUsers(t)[j], ListUsers(t)[i])
    ensures forall name :: name in ListUsers(t) <==> HasUser(t, name)
  {
    LexLessIsStrictWeakOrder();
    SortSorted(Usernames(t.rows), LexLess);
    var names := Usernames(t.rows);
    assert forall name :: name in ListUsers(t) <==> name in multiset(names);
    forall name ensures name in names <==> HasUser(t, name) {
      if name in names {
        var i :| 0 <= i < |names| && names[i] == name;
        assert t.rows[i].username == name;
      }
      if HasUser(t, name) {
        var i :| 0 <= i < |t.rows| && t.rows[i].username == name;
        assert names[i] == name;
      }
    }
  }

  /** A user just created verifies with the password it was created with,
      provided the scheme accepts its own hash; with any password the
      scheme rejects, the answer is "no match", as for an unknown user. */
  lemma CreateThenVerify(t: UserTable, username: string, password: string, other: string,
                         salt: string, scheme: PasswordScheme)
    requires scheme.hash(password, salt).Ok? ==>
               && scheme.parseError(scheme.hash(password, salt).value).None?
               && scheme.verifies(password, scheme.hash(password, salt).value)
               && !scheme.verifies(other, scheme.hash(password, salt).value)
    ensures var (t', r) := CreateUser(t, username, password, salt, scheme, None);
            r.Ok? ==>
              && VerifyUser(t', username, password, scheme) == Ok(Some(r.value))
              && VerifyUser(t', username, other, scheme) == Ok(None)
  {
    var (t', r) := CreateUser(t, username, password, salt, scheme, None);
    if r.Ok? {
      var x := UserRow(r.value.id, username, scheme.hash(password, salt).value);
      LookupAppended(t.rows, x);
    }
  }

  /** Looking up a name absent from `rows` after appending its row finds
      that row. */
  lemma {:induction false} LookupAppended(rows: seq<UserRow>, x: UserRow)
    requires forall i :: 0 <= i < |rows| ==> rows[i].username != x.username
    ensures Lookup(rows + [x], x.username) == Some(x)
  {
    if |rows| > 0 {
      assert (rows + [x])[1..] == rows[1..] + [x];
      LookupAppended(rows[1..], x);
    } else {
      assert rows + [x] == [x];
    }
  }

  /** A created user is listed. */
  lemma CreatedUserIsListed(t: UserTable, username: string, password: string, salt: string,
                            scheme: PasswordScheme)
    ensures var (t', r) := CreateUser(t, username, password, salt, scheme, None);
            r.Ok? ==> username in ListUsers(t')
  {
    var (t', r) := CreateUser(t, username, password, salt, scheme, None);
    if r.Ok? {
      ListUsersSorted(t');
      assert t'.rows[|t.rows|].username == username;
    }
  }
}

=== FILE: wrappers.dfy ===
/** Option and Result datatypes in the shape of Rust's `Option<T>` and
    `Result<T, E>`, both usable with Dafny's `:-` failure propagation. */
module Wrappers {

  datatype Option<+T> = None | Some(value: T) {

    predicate IsFailure() {
      None?
    }

    function PropagateFailure<U>(): Option<U>
      requires None?
    {
      None
    }

    function Extract(): T
      requires Some?
    {
      value
    }
  }

  datatype Result<+T, +E> = Ok(value: T) | Err(error: E) {

    predicate IsFailure() {
      Err?
    }

    function PropagateFailure<U>(): Result<U, E>
      requires Err?
    {
      Err(error)
    }

    function Extract(): T
      requires Ok?
    {
      value
    }
  }
}
